=== FILE: README.md ===
# Gym subscription server — a Dafny model

This project models the core of a university gym's subscription server. Members sign up
as students, staff or public users. They pick a membership plan and pay through the
Paystack gateway. The server then activates the subscription for the plan's duration.

The model covers:

- the subscription and payment lifecycle:
  - `createSubscription` and `getSubscriptionById`;
  - `initializePayment`, `verifyPayment` and the gateway webhook;
  - the abandoned-payment cleanup job and the expiry job;
  - the administrator's status override, statistics and pagination;
- the plan catalogue, administered by admins and browsed by members;
- the 5 % markup arithmetic;
- the request validators, including the registration page's two pure validators;
- the member account handlers: signups, login, refresh, forgot and reset password;
- the authentication middleware.

Each handler is a pure function from a store to a `Reply`:

- The store is four maps, from id to plan, user, subscription and transaction.
- The reply holds the HTTP status code, the store after the handler's writes, and the data.
- Everything outside the server is a parameter:
  - the clock (`now`, milliseconds since the epoch);
  - fresh row ids;
  - the gateway's answers;
  - the HMAC-SHA512 digest;
  - bcrypt's compare;
  - JWT verification.
- A Prisma call that throws is answered with 500. Writes made before the throw are kept,
  because the handlers do not wrap their statements in a database transaction.

Modules, one per file:

- `Wrappers`: the `Option` type.
- `Domain`: the records and the store, the integrity the database keeps, and the
  `PAY-<ms>-<8 chars>` payment reference with its injectivity proof.
- `Markup`: the constants in `server/src/config/constants.ts`.
- `Passwords`, `Validators`, `RegisterForm`: the password rules, the request schemas and
  the registration page.
- `AuthGate`: the authentication middleware.
- `Accounts`: the member authentication controller.
- `PlanCatalogue`: both plan controllers. This module holds a verified insertion sort
  for the listing order.
- `Subscriptions`, `Payments`: the member subscription and payment controllers.
- `Jobs`: the cleanup job and the expiry job.
- `AdminSubscriptions`: the administrator subscription controller.
- `Lifecycle`: cross-handler properties.

### Where the handlers do less than the program's own checks intend

- **`verifyPayment` has no status guard.** The webhook settles a payment only once: its
  `!== COMPLETED` check is at `server/src/controllers/user/payment.controller.ts:294`.
  `verifyPayment` has no such check. It re-settles a COMPLETED transaction with fresh dates
  (`Lifecycle.VerifyRecomputesDates`). It also turns a FAILED one into COMPLETED
  (`Lifecycle.VerifyRevivesFailed`).
- **"One ACTIVE subscription per user" is checked only at creation.** `createSubscription`
  refuses a second subscription while one is ACTIVE (the check commented at
  `server/src/controllers/user/subscription.controller.ts:62`). Two PENDING subscriptions of
  one user can still both be paid and activated (`Lifecycle.TwoActiveSubscriptions`).
- **The admin status override has no transition guard.** The admin dashboard hides its actions
  for CANCELLED and EXPIRED subscriptions (`admin/src/components/modals/SubscriptionDetailsDialog.tsx:240`).
  The controller itself writes any status over any other, including ACTIVE over an unpaid
  subscription.
- **A subscription can hold several transactions.** No check prevents a second pending
  transaction for the same subscription.
- **The create-plan schema calls the duration `durationInDays`, but the controller stores
  `duration`.** The model keeps the schema and the controller apart
  (`Validators.CreateSchemaIgnoresDuration`). A missing `duration` makes the insert fail (500).
- **The model assumes a unique index on `Plan.name`.** The controllers look names up with
  `findFirst` (`server/src/controllers/admin/plan.controller.ts:11` and `:148`). The database
  schema is not part of this model. `updatePlan` checks duplicates only for a truthy name, so
  under that index a clashing rename to "" is refused with 500, not 400.

## Model

| member | source | states |
|---|---|---|
| Domain.TransactionByReference | server/src/controllers/user/payment.controller.ts:156-165 | With unique references, the lookup by payment reference finds a transaction exactly when one carries that reference, and it finds that one |
| Domain.PaymentReference | server/src/controllers/user/subscription.controller.ts:99 | The reference starts with "PAY-" and is longer than five characters |
| Domain.DecimalStringRoundTrip | server/src/controllers/user/subscription.controller.ts:99 | The decimal rendering of `Date.now()` reads back as the same number |
| Domain.PaymentReferenceInjective | server/src/controllers/user/subscription.controller.ts:99 | Two references are equal exactly when their timestamps agree and their subscription ids share the first 8 characters |
| Markup.PriceWithMarkup | server/src/config/constants.ts:4-9 | The markup added is exactly 5 % of the base, and never lowers a non-negative price |
| Markup.BasePrice | server/src/config/constants.ts:12-14 | The base plus its 5 % markup is the marked-up price; a non-negative price has a base between 0 and itself |
| Markup.DeveloperShare | server/src/config/constants.ts:17-20 | The share and the base price add up to the total; the share is 1/21 of the total and non-negative for a non-negative total |
| Markup.BaseOfMarkup | server/src/config/constants.ts:7-14 | Removing the markup from a marked-up price gives back the base, exactly |
| Markup.MarkupOfBase | server/src/config/constants.ts:7-14 | Marking up the base of a price gives back the price, exactly |
| Markup.ShareOfMarkedUpPrice | server/src/config/constants.ts:7-20 | The developer's share of a marked-up price is 5 % of the base |
| Markup.SplitOf105 | server/src/config/constants.ts:7-20 | 105 splits into a base of 100 and a share of 5, and 100 marks up to 105 |
| Passwords.AdminPasswordIsUserPassword | server/src/validators/admin/auth.validator.ts:5-11 | Every password the admin rule accepts, the member rule accepts |
| Passwords.AdminSpecialsAreUserSpecials | server/src/validators/admin/auth.validator.ts:11 | The admin special characters are among the member ones, and '^' is a member special that is not an admin special |
| Passwords.UserPasswordNotAdminPassword | server/src/validators/user/auth.validator.ts:4-10 | "Abcdefg1^" meets the member rule and fails the admin rule |
| Passwords.Classify | server/src/validators/user/auth.validator.ts:4-10 | One scan decides each character-class requirement of both password rules |
| Validators.ParseGender | server/src/validators/user/auth.validator.ts:21 | Only "MALE" and "FEMALE" parse, each to the gender whose name it is |
| Validators.GenderRoundTrip | server/src/validators/user/auth.validator.ts:21 | Every gender's name parses back to that gender |
| Validators.ParseRole | server/src/validators/admin/plan.validator.ts:11 | Only the four role names parse, each to its role |
| Validators.RoleRoundTrip | server/src/validators/admin/plan.validator.ts:11 | Every role's name parses back to that role |
| Validators.ParseStudentSignup | server/src/validators/user/auth.validator.ts:13-25 | A student body parses exactly when it is valid; `residence` defaults to false and the hall stays optional |
| Validators.RoleSchemasExtendPublic | server/src/validators/user/auth.validator.ts:13-50 | Every valid student or staff signup body is a valid public body |
| Validators.LoginRuleWeakerThanStrength | server/src/validators/user/auth.validator.ts:53-88 | A valid new password passes login validation, but "a" passes login and fails reset |
| Validators.ParseAdminSignup | server/src/validators/admin/auth.validator.ts:14-23 | An admin body parses exactly when it is valid; `isSuperAdmin` defaults to false |
| Validators.AdminLoginAcceptsWeakPasswords | server/src/validators/admin/auth.validator.ts:26-31 | Admin login accepts a password that the admin strength rule rejects |
| Validators.CreatePlanIsActive | server/src/validators/admin/plan.validator.ts:13 | An omitted `isActive` becomes true; a given one is kept |
| Validators.CreateBodyIsUpdateBody | server/src/validators/admin/plan.validator.ts:5-31 | A valid create body, with its duration under the update key and a UUID id, is a valid update |
| Validators.CreateSchemaIgnoresDuration | server/src/validators/admin/plan.validator.ts:10 | A body the create schema accepts can lack the `duration` key the controller stores |
| RegisterForm.ValidatePassword | client/src/pages/Register.tsx:49-66 | No message exactly when the member rule holds; otherwise the message of the first failing rule, in the order length, upper, lower, digit, special |
| RegisterForm.PageAgreesWithServer | client/src/pages/Register.tsx:53-62 | The page accepts exactly the passwords the server's reset schema accepts |
| RegisterForm.ValidateForm | client/src/pages/Register.tsx:68-96 | The form is accepted exactly when every field rule holds, including the role-specific ones |
| RegisterForm.AcceptedFormPassesServer | client/src/pages/Register.tsx:111-140 | A form the page accepts, as submitted, passes the server schema of its role, given agreement on e-mail and gender |
| RegisterForm.ServerAcceptsResidentWithoutHall | client/src/pages/Register.tsx:89-91 | A resident student without a hall is refused by the page but accepted by the server schema |
| AuthGate.BearerToken | server/src/middleware/auth.middleware.ts:37 | The header is "Bearer " followed by the token |
| AuthGate.Authenticate | server/src/middleware/auth.middleware.ts:21-57 | The request proceeds exactly when the header starts with "Bearer " and the token verifies, with the decoded payload as the user; otherwise 401 |
| AuthGate.AuthenticateBearer | server/src/middleware/auth.middleware.ts:27-49 | For "Bearer " + token the outcome depends only on whether that token verifies |
| AuthGate.LowerCaseSchemeRefused | server/src/middleware/auth.middleware.ts:27-35 | "bearer abc" is refused with 401 |
| AuthGate.OptionalAuthenticate | server/src/middleware/auth.middleware.ts:87-109 | Always proceeds; a user is attached exactly when `authenticate` would have let the request through |
| AuthGate.Authorize | server/src/middleware/auth.middleware.ts:62-82 | 401 without a user, 403 for a role not listed, otherwise proceeds with the same user |
| AuthGate.AuthenticateThenAuthorize | server/src/middleware/auth.middleware.ts:21-82 | Chained, the handler is reached exactly for a Bearer token that verifies to a listed role |
| Accounts.UserByEmail | server/src/controllers/user/auth.controller.ts:266-268 | With unique e-mails, the lookup finds a user exactly when the e-mail is registered |
| Accounts.StudentSignup | server/src/controllers/user/auth.controller.ts:11-97 | 409 exactly when the e-mail or student id is taken; on 201 exactly one STUDENT user is added; otherwise nothing changes |
| Accounts.StaffSignup | server/src/controllers/user/auth.controller.ts:102-184 | 409 exactly when the e-mail or staff id is taken; on 201 exactly one STAFF user is added; otherwise nothing changes |
| Accounts.PublicSignup | server/src/controllers/user/auth.controller.ts:189-256 | 409 exactly when the e-mail is taken; on 201 exactly one PUBLIC user is added; otherwise nothing changes |
| Accounts.SignupsKeepEmailsUnique | server/src/controllers/user/auth.controller.ts:15-26 | Every signup keeps e-mails unique |
| Accounts.WithoutPassword | server/src/controllers/user/auth.controller.ts:306 | The user sent back carries the account's fields and has no password field |
| Accounts.Login | server/src/controllers/user/auth.controller.ts:261-325 | 403 exactly for a registered inactive account, checked before the password; 200 exactly for an active account whose password matches; otherwise 401 |
| Accounts.Refresh | server/src/controllers/user/auth.controller.ts:330-380 | 200 exactly when the token verifies to an existing active user; otherwise 401; nothing is written |
| Accounts.ForgotPassword | server/src/controllers/user/auth.controller.ts:461-510 | An unknown e-mail gets 200 with no token, an inactive account 403, and an active one a reset claim for its id and e-mail |
| Accounts.ResetPassword | server/src/controllers/user/auth.controller.ts:515-575 | 401 exactly for a bad token, 404 exactly for a missing user or mismatched e-mail, 403 exactly when that user is inactive, so 200 exactly for a valid token of an active user, which changes only that user's password |
| Accounts.PublicSignupThenLogin | server/src/controllers/user/auth.controller.ts:189-325 | A new public account can log in with the password it signed up with |
| Accounts.ResetThenLogin | server/src/controllers/user/auth.controller.ts:515-575 | After a successful reset, the new password logs the account in |
| Accounts.ForgotThenReset | server/src/controllers/user/auth.controller.ts:461-575 | The token issued by forgot-password to an active account resets that account's password (200) |
| Accounts.LoginThenRefresh | server/src/controllers/user/auth.controller.ts:261-380 | A refresh token carrying a login's payload refreshes to that same payload |
| Accounts.ForgotPasswordRevealsDeactivated | server/src/controllers/user/auth.controller.ts:466-486 | An unknown e-mail and a deactivated account get different answers (200 and 403) |
| PlanCatalogue.Insert | server/src/controllers/admin/plan.controller.ts:68-74 | Inserting into a sorted listing keeps it sorted and adds exactly that id |
| PlanCatalogue.SortPlans | server/src/controllers/admin/plan.controller.ts:68-74 | The listing is a permutation of the chosen ids, sorted by the query's order |
| PlanCatalogue.CreatePlan | server/src/controllers/admin/plan.controller.ts:6-50 | The answer is 201, 400 or 500: 400 exactly when the name is taken, 500 when the duration is missing or the id is in use, with nothing added either way; on 201 exactly one plan is added, carrying the body's name, description, price, duration, role and features, and active unless the body says otherwise |
| PlanCatalogue.UpdatePlan | server/src/controllers/admin/plan.controller.ts:128-184 | 404 for an unknown id; 400 exactly when a truthy new name belongs to another plan; on 200 only that plan changes, by the given fields |
| PlanCatalogue.DeletePlan | server/src/controllers/admin/plan.controller.ts:187-238 | 404 for an unknown id; 400 exactly when any subscription names the plan; on 200 only that plan is removed |
| PlanCatalogue.SubscriptionCount | server/src/controllers/admin/plan.controller.ts:193-200 | The count of a plan's subscriptions is positive exactly when some subscription names it |
| PlanCatalogue.AdminGetPlan | server/src/controllers/admin/plan.controller.ts:91-125 | 404 exactly for an unknown id; otherwise the plan and a count that is positive exactly when it is referenced |
| PlanCatalogue.AdminListPlans | server/src/controllers/admin/plan.controller.ts:53-88 | Exactly the plans matching the given filters, each once, active before inactive, then by ascending price; an unknown role gives 500 |
| PlanCatalogue.ListVisiblePlans | server/src/controllers/user/plan.controller.ts:6-45 | Exactly the active plans, of the caller's role when signed in, each once, by ascending price |
| PlanCatalogue.GetVisiblePlan | server/src/controllers/user/plan.controller.ts:48-95 | 200 exactly for an existing active plan; a missing and an inactive plan both get 404 |
| PlanCatalogue.CreateKeepsNamesUnique | server/src/controllers/admin/plan.controller.ts:11-21 | Creating a plan keeps plan names unique |
| PlanCatalogue.UpdateKeepsNamesUnique | server/src/controllers/admin/plan.controller.ts:147-168 | Updating a plan keeps plan names unique |
| PlanCatalogue.RenameOutcomes | server/src/controllers/admin/plan.controller.ts:147-162 | Renaming to another plan's non-empty name is refused with 400; keeping the plan's own name is allowed |
| PlanCatalogue.EmptyRenameSkipsDuplicateCheck | server/src/controllers/admin/plan.controller.ts:147 | A clashing rename to "" slips past the controller's check and is refused by the unique index (500) |
| PlanCatalogue.DeleteKeepsReferentialIntegrity | server/src/controllers/admin/plan.controller.ts:212-223 | Deleting a plan never leaves a subscription pointing at a missing plan |
| Subscriptions.PendingSubscription | server/src/controllers/user/subscription.controller.ts:79-96 | The new subscription is PENDING with payment PENDING and no dates |
| Subscriptions.PendingTransaction | server/src/controllers/user/subscription.controller.ts:99-110 | The new transaction is PENDING, by mobile money, unpaid, stamped with the creation time |
| Subscriptions.CreateSubscription | server/src/controllers/user/subscription.controller.ts:7-134 | 401 without a caller; 404 for an unknown plan or user; 403 exactly on a role mismatch; refusals write nothing; on 201 exactly one PENDING subscription and its PENDING transaction for the plan price are added; a failing second insert keeps the first |
| Subscriptions.OnlyActiveBlocks | server/src/controllers/user/subscription.controller.ts:62-76 | For an eligible caller, creation succeeds exactly when none of their subscriptions is ACTIVE |
| Subscriptions.GetSubscription | server/src/controllers/user/subscription.controller.ts:197-269 | 401 without a caller, 404 for an unknown id, 403 exactly when the caller does not own it, 200 with the subscription otherwise |
| Subscriptions.CreatedSubscriptionIsReadable | server/src/controllers/user/subscription.controller.ts:79-96 | Its owner can read back a newly created subscription |
| Payments.Paid | server/src/controllers/user/payment.controller.ts:185-193 | A settled transaction is COMPLETED with the gateway reference and payment time; all else is kept |
| Payments.Activated | server/src/controllers/user/payment.controller.ts:196-209 | A settled subscription is ACTIVE and paid, from now until now plus the plan's duration in days |
| Payments.Settle | server/src/controllers/user/payment.controller.ts:184-209 | Settling touches only the one transaction and its subscription |
| Payments.Round | server/src/controllers/user/payment.controller.ts:76 | The rounded amount is within half a unit of the exact one |
| Payments.RoundOfHundredths | server/src/controllers/user/payment.controller.ts:76 | A price in whole hundredths is sent as exactly that many minor units |
| Payments.ChannelFor | server/src/controllers/user/payment.controller.ts:85 | The channel is mobile_money exactly for mobile money, card exactly for card |
| Payments.InitRequestFor | server/src/controllers/user/payment.controller.ts:72-86 | The gateway request carries the caller's e-mail, the reference, the channel and the amount times 100 rounded |
| Payments.InitializePayment | server/src/controllers/user/payment.controller.ts:11-125 | 401 exactly without a caller or e-mail, 404 exactly for an unknown transaction, 403 exactly for a non-owner, 400 exactly for the owner of a COMPLETED transaction, all without writes; only the owner of an unpaid transaction causes a write, changing only the payment method; 200 exactly when the gateway then accepts |
| Payments.InitializeKeepsStatuses | server/src/controllers/user/payment.controller.ts:64-68 | No status or payment time changes during initialization |
| Payments.VerifyPayment | server/src/controllers/user/payment.controller.ts:128-246 | 401 exactly without a caller; 400 exactly when the gateway answers without success; 404 exactly for an unknown reference; 403 exactly when a linked transaction belongs to someone else; 200 exactly for its owner; only a 200 writes, settling the transaction whatever its status |
| Payments.Webhook | server/src/controllers/user/payment.controller.ts:249-337 | 401 exactly for a missing or wrong signature; 500 exactly without a secret, or for a signed `charge.success` whose transaction lacks its subscription or plan; every other signed event gets 200; only a `charge.success` for a transaction that is not COMPLETED writes, by settling it |
| Payments.WebhookSettlesPending | server/src/controllers/user/payment.controller.ts:280-320 | A signed `charge.success` for a pending transaction settles it |
| Payments.WebhookAcknowledgesOtherEvents | server/src/controllers/user/payment.controller.ts:280-329 | A correctly signed event other than `charge.success` gets 200 and changes nothing |
| Payments.WebhookReadsRelationsFirst | server/src/controllers/user/payment.controller.ts:283-294 | A signed `charge.success` for a COMPLETED transaction missing its subscription or plan gets 500, because the read throws before the status check |
| Payments.WebhookRedeliveryIsNoOp | server/src/controllers/user/payment.controller.ts:294 | Delivering the same event again, at any time, changes nothing |
| Jobs.LeadingDigits | server/src/jobs/paymentCleanup.job.ts:18 | The longest digit prefix of the variable, as `parseInt` reads it |
| Jobs.TimeoutMinutes | server/src/jobs/paymentCleanup.job.ts:18 | An unset or empty variable gives 30 minutes; a value not starting with a digit gives NaN |
| Jobs.TimeoutOfDecimal | server/src/jobs/paymentCleanup.job.ts:18 | A variable spelling a number in decimal gives exactly that many minutes |
| Jobs.Selection | server/src/jobs/paymentCleanup.job.ts:23-33 | Exactly the PENDING transactions created before the cut-off |
| Jobs.CleanedNothing | server/src/jobs/paymentCleanup.job.ts:41-43 | Before the first turn of the loop, the store is the cleaned store of no transactions |
| Jobs.CleanedStep | server/src/jobs/paymentCleanup.job.ts:44-63 | One turn of the loop extends the cleaned store by one transaction, whatever the order |
| Jobs.FailAll | server/src/jobs/paymentCleanup.job.ts:41-66 | Commits exactly when every selected transaction's subscription exists, then leaves the cleaned store and counts the selection |
| Jobs.Cleanup | server/src/jobs/paymentCleanup.job.ts:10-72 | A NaN timeout or an empty selection writes nothing; a missing subscription rolls all back; otherwise all selected are failed, their subscriptions expired, and the count is the selection's size |
| Jobs.CleanedRows | server/src/jobs/paymentCleanup.job.ts:46-60 | Selected transactions become FAILED and their subscriptions EXPIRED with payment FAILED; unselected transactions are untouched |
| Jobs.CleanupSparesCompleted | server/src/jobs/paymentCleanup.job.ts:23-29 | A COMPLETED transaction is never touched by the cleanup |
| Jobs.ExpireSubscriptions | server/src/jobs/subscriptionExpiration.job.ts:48-70 | Exactly the ACTIVE subscriptions ending before now become EXPIRED, with nothing else changed; the count is their number |
| Jobs.NothingLapsedAfterExpiry | server/src/jobs/subscriptionExpiration.job.ts:52-62 | After a run no ACTIVE subscription ends before that instant |
| Jobs.ExpiryIsIdempotent | server/src/jobs/subscriptionExpiration.job.ts:52-62 | A second run at the same instant expires nothing and changes nothing |
| AdminSubscriptions.UpdateSubscriptionStatus | server/src/controllers/admin/subscription.controller.ts:174-233 | 404 exactly for an unknown id; 500 exactly when the subscription's user or plan is missing, because the update's read-back throws; neither writes; on 200 only that subscription's status changes, to the value given |
| AdminSubscriptions.OverrideReachesEveryStatus | server/src/controllers/admin/subscription.controller.ts:192-198 | Any status can be written from any status |
| AdminSubscriptions.OverrideActivatesUnpaid | server/src/controllers/admin/subscription.controller.ts:192-198 | An unpaid subscription can be made ACTIVE while its payment stays PENDING |
| AdminSubscriptions.StatusCountsPartition | server/src/controllers/admin/subscription.controller.ts:246-258 | The four status counts add up to the total |
| AdminSubscriptions.SumAmountsRemove | server/src/controllers/admin/subscription.controller.ts:259-262 | The sum of amounts does not depend on the order of summation |
| AdminSubscriptions.TotalRevenue | server/src/controllers/admin/subscription.controller.ts:259-262 | The revenue is the sum of the COMPLETED transactions' amounts |
| AdminSubscriptions.SumAmountsNonNegative | server/src/controllers/admin/subscription.controller.ts:273 | With no COMPLETED transaction the revenue is 0; with non-negative amounts it is never negative |
| AdminSubscriptions.GetSubscriptionStats | server/src/controllers/admin/subscription.controller.ts:236-283 | Each count is the number of subscriptions in that status, they partition the total, and the revenue is the COMPLETED sum |
| AdminSubscriptions.Skip | server/src/controllers/admin/subscription.controller.ts:8-31 | The defaults and page 1 both start at the first row |
| AdminSubscriptions.Ceil | server/src/controllers/admin/subscription.controller.ts:88 | The least integer not below its argument |
| AdminSubscriptions.Pages | server/src/controllers/admin/subscription.controller.ts:88 | For a positive limit, the least number of pages that holds all rows; a zero limit gives NaN or Infinity |
| AdminSubscriptions.CeilCovers | server/src/controllers/admin/subscription.controller.ts:88 | The ceiling of total over limit covers the rows with no spare page |
| AdminSubscriptions.PagesBelow | server/src/controllers/admin/subscription.controller.ts:88 | One page fewer than the ceiling cannot hold all rows |
| AdminSubscriptions.PagesAbove | server/src/controllers/admin/subscription.controller.ts:88 | The ceiling's number of pages holds all rows |
| AdminSubscriptions.PageOfRow | server/src/controllers/admin/subscription.controller.ts:30-31 | Every row lies on a page between 1 and `pages`, within that page's skip window |
| Lifecycle.IntegrityLinks | server/src/controllers/user/payment.controller.ts:156-165 | With foreign keys in place, a transaction's subscription and plan are always found |
| Lifecycle.CreateSubscriptionKeepsConsistent | server/src/controllers/user/subscription.controller.ts:79-110 | Creation keeps references unique, foreign keys valid and payment times in step with status |
| Lifecycle.InitializeKeepsConsistent | server/src/controllers/user/payment.controller.ts:64-68 | Initialization keeps the store consistent |
| Lifecycle.SettleKeepsConsistent | server/src/controllers/user/payment.controller.ts:184-209 | Settling keeps the store consistent |
| Lifecycle.VerifyKeepsConsistent | server/src/controllers/user/payment.controller.ts:128-246 | `verifyPayment` keeps the store consistent |
| Lifecycle.WebhookKeepsConsistent | server/src/controllers/user/payment.controller.ts:249-337 | The webhook keeps the store consistent |
| Lifecycle.CleanupKeepsConsistent | server/src/jobs/paymentCleanup.job.ts:41-66 | The cleanup keeps the store consistent |
| Lifecycle.ExpiryKeepsConsistent | server/src/jobs/subscriptionExpiration.job.ts:52-62 | The expiry job keeps the store consistent |
| Lifecycle.OverrideKeepsConsistent | server/src/controllers/admin/subscription.controller.ts:193-198 | The status override keeps the store consistent |
| Lifecycle.DeletePlanKeepsConsistent | server/src/controllers/admin/plan.controller.ts:212-223 | Deleting a plan keeps the store consistent |
| Lifecycle.InitializeSparesCompleted | server/src/controllers/user/payment.controller.ts:56-62 | Initialization leaves a COMPLETED transaction exactly as it is |
| Lifecycle.WebhookSparesCompleted | server/src/controllers/user/payment.controller.ts:294 | The webhook leaves a COMPLETED transaction exactly as it is, whatever the event |
| Lifecycle.VerifyKeepsCompleted | server/src/controllers/user/payment.controller.ts:185-193 | A COMPLETED transaction stays COMPLETED under verification |
| Lifecycle.VerifyRevivesFailed | server/src/controllers/user/payment.controller.ts:184-209 | Verification turns a FAILED transaction into COMPLETED and re-activates its subscription |
| Lifecycle.VerifyRecomputesDates | server/src/controllers/user/payment.controller.ts:195-209 | Verifying an already settled payment again moves the subscription's dates forward by the time elapsed |
| Lifecycle.WebhookSettlesOnce | server/src/controllers/user/payment.controller.ts:294 | A repeated webhook delivery leaves the subscription dates alone |
| Lifecycle.TwoActiveSubscriptions | server/src/controllers/user/subscription.controller.ts:62-76 | Two subscriptions created in a row and both paid leave one user with two ACTIVE subscriptions |
| Lifecycle.CreateThenWebhookActivates | server/src/controllers/user/payment.controller.ts:294-320 | Creating and then receiving the gateway's confirmation leaves the subscription ACTIVE and paid for the plan's duration from payment |

## Left out

- Transport: HTTP routing, response bodies beyond the status code and key data, and logging.
  The route files and `validate.middleware.ts` are left out. That middleware parses
  `req.body` against schemas wrapped as `{ body: ... }`, so the schemas are modelled on
  their own.
- The gateway's HTTP calls, HMAC-SHA512, JSON serialisation, bcrypt, JWT signing and
  verification: these are parameters. The webhook's `metadata` payload is not stored in the
  model.
- Concurrency: each handler is one atomic step. The handlers have no locks, and the
  cleanup's selection is read outside its database transaction. Interleavings are not modelled.
- The `updatedAt`, `createdAt` and `lastLogin` stamps, except a transaction's `createdAt`,
  which the cleanup reads.
- Read-only listings that only pass data through: `getUserSubscriptions`, the admin
  `getAllSubscriptions` rows and `getSubscriptionById`, and the transaction and user
  controllers. Pagination is modelled only as its arithmetic.
- The profile and logout handlers, and the administrator authentication controller.
  That controller imports token helpers that the JWT utility does not define.
- The `node-cron` schedules. `now` is a parameter, and the cron variant of the expiry job
  makes the same update as `expireSubscriptions`.
- The format check of `z.string().email()`: a parameter `isEmail`.
- Domain.AddDays: adds whole days of 86 400 000 ms. It does not model the local-time
  `setDate` across a daylight-saving change.
- Payments.Round: works on exact reals, not on the IEEE doubles of `Math.round(amount * 100)`.
- Jobs.TimeoutMinutes: reads only a leading run of digits. It does not model leading
  white space, a sign or a radix prefix, which `parseInt` also accepts.
- Jobs.Cutoff: subtracts whole minutes of 60 000 ms. Local-time `setMinutes` is not modelled.
- AdminSubscriptions.Pages: states nothing for a negative limit or a non-numeric `page` or
  `limit` query value. Prisma reads a negative `take` as counting back from the end of the list; that window is not modelled.
- AdminSubscriptions.Skip: the window Prisma returns for a skip and take is not modelled.
  Only the arithmetic is.
- PlanCatalogue.UpdatePlan: applies only the plan fields. An unknown key in the body makes
  Prisma reject the update, and the model does not represent such keys. It also assumes a
  unique index on `Plan.name`: the 500 for a clashing rename to "" rests on that index,
  which the controllers do not show.
- Lengths of strings are counted in characters, not in the UTF-16 code units JavaScript counts.

=== FILE: accounts.dfy ===
/**
 * The member account controller: the three signups (student, staff, public), login,
 * token refresh, forgot-password and reset-password. Hashing, comparing and JWT
 * handling are parameters: the bcrypt hash of the new password is passed in, the
 * comparison is `matches(plain, hash)`, and a token verifier answers `None` when
 * `jsonwebtoken` throws. Bodies are taken as the schemas deliver them.
 */
module Accounts {
  import opened Wrappers
  import opened Domain
  import AuthGate

  // ---------------------------------------------------------------------------
  // Unique indexes of the user table and the lookups they allow
  // ---------------------------------------------------------------------------

  predicate EmailTaken(users: map<Id, User>, email: string) {
    exists id :: id in users && users[id].email == email
  }

  predicate StudentIdTaken(users: map<Id, User>, studentId: string) {
    exists id :: id in users && users[id].studentId == Some(studentId)
  }

  predicate StaffIdTaken(users: map<Id, User>, staffId: string) {
    exists id :: id in users && users[id].staffId == Some(staffId)
  }

  /** `email` carries a unique index. */
  predicate UniqueEmails(users: map<Id, User>) {
    forall a, b :: a in users && b in users && users[a].email == users[b].email ==> a == b
  }

  /** `findUnique({ where: { email } })`. */
  function UserByEmail(users: map<Id, User>, email: string): (r: Option<Id>)
    requires UniqueEmails(users)
    ensures r.Some? <==> EmailTaken(users, email)
    ensures r.Some? ==> r.value in users && users[r.value].email == email
  {
    if EmailTaken(users, email) then
      var id :| id in users && users[id].email == email; Some(id)
    else None
  }

  // ---------------------------------------------------------------------------
  // Signup
  // ---------------------------------------------------------------------------

  /** The validated fields of a signup body. */
  datatype Registration = Registration(
    email: string,
    surname: string,
    otherNames: string,
    phone: string,
    gender: Gender,
    residence: bool,
    hallOfResidence: Option<string>)

  /** The row `prisma.user.create` writes; accounts start active. */
  function NewUser(reg: Registration, hashed: string, role: Role,
                   studentId: Option<string>, staffId: Option<string>): (u: User)
    ensures u.email == reg.email && u.password == hashed && u.role == role && u.isActive
    ensures u.studentId == studentId && u.staffId == staffId
  {
    User(reg.email, hashed, role, reg.surname, reg.otherNames, reg.phone, reg.gender,
         studentId, staffId, reg.residence, reg.hallOfResidence, true)
  }

  /** The id of the created user, the 201 body. */
  type Created = Id

  /** `studentSignup`. `newId` is the id the database generates; a clash makes the insert throw. */
  function StudentSignup(st: Store, reg: Registration, studentId: string, hashed: string, newId: Id): (r: Reply<Created>)
    ensures r.code == 201 <==> !EmailTaken(st.users, reg.email) && !StudentIdTaken(st.users, studentId) && newId !in st.users
    ensures r.code == 409 <==> EmailTaken(st.users, reg.email) || StudentIdTaken(st.users, studentId)
    ensures r.code == 201 ==>
      r.store == st.(users := st.users[newId := NewUser(reg, hashed, STUDENT, Some(studentId), None)])
      && r.body == Some(newId)
    ensures r.code != 201 ==> r.store == st
  {
    if EmailTaken(st.users, reg.email) then Refuse(st, 409)
    else if StudentIdTaken(st.users, studentId) then Refuse(st, 409)
    else if newId in st.users then Refuse(st, 500)
    else
      var u := NewUser(reg, hashed, STUDENT, Some(studentId), None);
      Reply(201, st.(users := st.users[newId := u]), Some(newId))
  }

  /** `staffSignup`: staff have no residence. */
  function StaffSignup(st: Store, reg: Registration, staffId: string, hashed: string, newId: Id): (r: Reply<Created>)
    ensures r.code == 201 <==> !EmailTaken(st.users, reg.email) && !StaffIdTaken(st.users, staffId) && newId !in st.users
    ensures r.code == 409 <==> EmailTaken(st.users, reg.email) || StaffIdTaken(st.users, staffId)
    ensures r.code == 201 ==>
      r.store == st.(users := st.users[newId := NewUser(reg.(residence := false, hallOfResidence := None), hashed, STAFF, None, Some(staffId))])
      && r.body == Some(newId)
    ensures r.code != 201 ==> r.store == st
  {
    if EmailTaken(st.users, reg.email) then Refuse(st, 409)
    else if StaffIdTaken(st.users, staffId) then Refuse(st, 409)
    else if newId in st.users then Refuse(st, 500)
    else
      var u := NewUser(reg.(residence := false, hallOfResidence := None), hashed, STAFF, None, Some(staffId));
      Reply(201, st.(users := st.users[newId := u]), Some(newId))
  }

  /** `publicSignup`: only the e-mail must be new. */
  function PublicSignup(st: Store, reg: Registration, hashed: string, newId: Id): (r: Reply<Created>)
    ensures r.code == 201 <==> !EmailTaken(st.users, reg.email) && newId !in st.users
    ensures r.code == 409 <==> EmailTaken(st.users, reg.email)
    ensures r.code == 201 ==>
      r.store == st.(users := st.users[newId := NewUser(reg.(residence := false, hallOfResidence := None), hashed, PUBLIC, None, None)])
      && r.body == Some(newId)
    ensures r.code != 201 ==> r.store == st
  {
    if EmailTaken(st.users, reg.email) then Refuse(st, 409)
    else if newId in st.users then Refuse(st, 500)
    else
      var u := NewUser(reg.(residence := false, hallOfResidence := None), hashed, PUBLIC, None, None);
      Reply(201, st.(users := st.users[newId := u]), Some(newId))
  }

  /** Signups only add a user whose e-mail was free, so e-mails stay unique. */
  lemma SignupsKeepEmailsUnique(st: Store, reg: Registration, roleId: string, hashed: string, newId: Id)
    requires UniqueEmails(st.users)
    ensures UniqueEmails(StudentSignup(st, reg, roleId, hashed, newId).store.users)
    ensures UniqueEmails(StaffSignup(st, reg, roleId, hashed, newId).store.users)
    ensures UniqueEmails(PublicSignup(st, reg, hashed, newId).store.users)
  {
  }

  // ---------------------------------------------------------------------------
  // Login and refresh
  // ---------------------------------------------------------------------------

  /** The user as the login response shows it: every column but the password. */
  datatype PublicUser = PublicUser(
    id: Id, email: string, role: Role, surname: string, otherNames: string, phone: string,
    gender: Gender, studentId: Option<string>, staffId: Option<string>, residence: bool,
    hallOfResidence: Option<string>, isActive: bool)

  function WithoutPassword(id: Id, u: User): (p: PublicUser)
    ensures p.id == id && p.email == u.email && p.role == u.role && p.isActive == u.isActive
    ensures p.studentId == u.studentId && p.staffId == u.staffId
  {
    PublicUser(id, u.email, u.role, u.surname, u.otherNames, u.phone, u.gender,
               u.studentId, u.staffId, u.residence, u.hallOfResidence, u.isActive)
  }

  /** A login answer: the user without the password, and the payload both tokens are signed over. */
  datatype LoginAnswer = LoginAnswer(user: PublicUser, tokensFor: AuthGate.Payload)

  /** `login`: unknown e-mail 401, deactivated account 403 (before the password is looked at), wrong password 401. */
  function Login(st: Store, email: string, password: string, matches: (string, string) -> bool): (r: Reply<LoginAnswer>)
    requires UniqueEmails(st.users)
    ensures r.store == st
    ensures r.code in {200, 401, 403}
    ensures r.code == 403 <==> EmailTaken(st.users, email) && !st.users[UserByEmail(st.users, email).value].isActive
    ensures r.code == 200 <==>
      EmailTaken(st.users, email)
      && var u := st.users[UserByEmail(st.users, email).value]; u.isActive && matches(password, u.password)
    ensures r.code == 200 ==>
      var id := UserByEmail(st.users, email).value;
      r.body == Some(LoginAnswer(WithoutPassword(id, st.users[id]),
                                 AuthGate.Payload(id, email, st.users[id].role)))
  {
    var found := UserByEmail(st.users, email);
    if found.None? then Refuse(st, 401)
    else
      var u := st.users[found.value];
      if !u.isActive then Refuse(st, 403)
      else if !matches(password, u.password) then Refuse(st, 401)
      else Reply(200, st, Some(LoginAnswer(WithoutPassword(found.value, u), AuthGate.Payload(found.value, u.email, u.role))))
  }

  /** `refreshToken`: a fresh pair is issued for the user as the store now has it. */
  function Refresh(st: Store, token: string, verifyRefresh: string -> Option<AuthGate.Payload>): (r: Reply<AuthGate.Payload>)
    ensures r.store == st
    ensures r.code in {200, 401}
    ensures r.code == 200 <==>
      verifyRefresh(token).Some? && verifyRefresh(token).value.userId in st.users
      && st.users[verifyRefresh(token).value.userId].isActive
    ensures r.code == 200 ==>
      var id := verifyRefresh(token).value.userId;
      r.body == Some(AuthGate.Payload(id, st.users[id].email, st.users[id].role))
  {
    var decoded := verifyRefresh(token);
    if decoded.None? then Refuse(st, 401)
    else if decoded.value.userId !in st.users || !st.users[decoded.value.userId].isActive then Refuse(st, 401)
    else
      var u := st.users[decoded.value.userId];
      Reply(200, st, Some(AuthGate.Payload(decoded.value.userId, u.email, u.role)))
  }

  // ---------------------------------------------------------------------------
  // Forgot and reset password
  // ---------------------------------------------------------------------------

  /** What a reset token is signed over, and what verifying one yields. */
  datatype ResetClaim = ResetClaim(userId: Id, email: string)

  /** `forgotPassword`: an unknown e-mail gets the same 200 as a known one, but no token. */
  function ForgotPassword(st: Store, email: string): (r: Reply<ResetClaim>)
    requires UniqueEmails(st.users)
    ensures r.store == st
    ensures r.code in {200, 403}
    ensures !EmailTaken(st.users, email) ==> r.code == 200 && r.body.None?
    ensures r.code == 403 <==> EmailTaken(st.users, email) && !st.users[UserByEmail(st.users, email).value].isActive
    ensures r.body.Some? <==> EmailTaken(st.users, email) && st.users[UserByEmail(st.users, email).value].isActive
    ensures r.body.Some? ==> r.body.value.userId in st.users && r.body.value.email == email
  {
    var found := UserByEmail(st.users, email);
    if found.None? then Refuse(st, 200)
    else if !st.users[found.value].isActive then Refuse(st, 403)
    else Reply(200, st, Some(ResetClaim(found.value, st.users[found.value].email)))
  }

  /** `resetPassword`: only the password column of the token's user changes. */
  function ResetPassword(st: Store, token: string, newHashed: string, verifyReset: string -> Option<ResetClaim>): (r: Reply<()>)
    ensures r.code in {200, 401, 403, 404}
    ensures r.code == 401 <==> verifyReset(token).None?
    ensures r.code == 404 <==>
      verifyReset(token).Some? &&
      (verifyReset(token).value.userId !in st.users
       || st.users[verifyReset(token).value.userId].email != verifyReset(token).value.email)
    ensures r.code == 403 <==>
      verifyReset(token).Some? && verifyReset(token).value.userId in st.users
      && st.users[verifyReset(token).value.userId].email == verifyReset(token).value.email
      && !st.users[verifyReset(token).value.userId].isActive
    ensures r.code == 200 ==>
      var id := verifyReset(token).value.userId;
      id in st.users && st.users[id].isActive
      && r.store == st.(users := st.users[id := st.users[id].(password := newHashed)])
    ensures r.code != 200 ==> r.store == st
  {
    var claim := verifyReset(token);
    if claim.None? then Refuse(st, 401)
    else if claim.value.userId !in st.users || st.users[claim.value.userId].email != claim.value.email then Refuse(st, 404)
    else if !st.users[claim.value.userId].isActive then Refuse(st, 403)
    else
      var id := claim.value.userId;
      Reply(200, st.(users := st.users[id := st.users[id].(password := newHashed)]), Some(()))
  }

  // ---------------------------------------------------------------------------
  // Relations between the account operations
  // ---------------------------------------------------------------------------

  /** Someone who has just signed up can log in with the password whose hash was stored. */
  lemma PublicSignupThenLogin(st: Store, reg: Registration, password: string, hashed: string, newId: Id,
                              matches: (string, string) -> bool)
    requires UniqueEmails(st.users)
    requires matches(password, hashed)
    requires PublicSignup(st, reg, hashed, newId).code == 201
    ensures var st' := PublicSignup(st, reg, hashed, newId).store;
            UniqueEmails(st'.users)
            && Login(st', reg.email, password, matches).code == 200
            && Login(st', reg.email, password, matches).body.value.user.id == newId
  {
    var st' := PublicSignup(st, reg, hashed, newId).store;
    assert st'.users[newId].email == reg.email;
    assert UniqueEmails(st'.users);
    assert UserByEmail(st'.users, reg.email) == Some(newId);
  }

  /** After a reset, the new password logs in and nothing else about the account changed. */
  lemma ResetThenLogin(st: Store, token: string, password: string, newHashed: string,
                       verifyReset: string -> Option<ResetClaim>, matches: (string, string) -> bool)
    requires UniqueEmails(st.users)
    requires matches(password, newHashed)
    requires ResetPassword(st, token, newHashed, verifyReset).code == 200
    ensures var st' := ResetPassword(st, token, newHashed, verifyReset).store;
            UniqueEmails(st'.users)
            && Login(st', verifyReset(token).value.email, password, matches).code == 200
  {
    var claim := verifyReset(token).value;
    var st' := ResetPassword(st, token, newHashed, verifyReset).store;
    assert claim.userId in st'.users && st'.users[claim.userId].email == claim.email;
    assert UniqueEmails(st'.users);
    assert UserByEmail(st'.users, claim.email) == Some(claim.userId);
  }

  /** The token `forgotPassword` issues to an active account resets that account's password. */
  lemma ForgotThenReset(st: Store, email: string, token: string, newHashed: string,
                        verifyReset: string -> Option<ResetClaim>)
    requires UniqueEmails(st.users)
    requires EmailTaken(st.users, email) && st.users[UserByEmail(st.users, email).value].isActive
    requires verifyReset(token) == ForgotPassword(st, email).body
    ensures var r := ResetPassword(st, token, newHashed, verifyReset);
            var id := UserByEmail(st.users, email).value;
            && r.code == 200
            && r.store == st.(users := st.users[id := st.users[id].(password := newHashed)])
  {
    var id := UserByEmail(st.users, email).value;
    assert verifyReset(token) == Some(ResetClaim(id, st.users[id].email));
  }

  /** A refresh token issued for a login's payload refreshes to that same payload while the
      account stays as it is. */
  lemma LoginThenRefresh(st: Store, email: string, password: string, matches: (string, string) -> bool,
                         token: string, verifyRefresh: string -> Option<AuthGate.Payload>)
    requires UniqueEmails(st.users)
    requires Login(st, email, password, matches).code == 200
    requires verifyRefresh(token) == Some(Login(st, email, password, matches).body.value.tokensFor)
    ensures var r := Refresh(st, token, verifyRefresh);
            r.code == 200 && r.body == Some(Login(st, email, password, matches).body.value.tokensFor)
  {
    var id := UserByEmail(st.users, email).value;
    assert st.users[id].email == email;
  }

  /** The forgot-password status code tells an unknown address from a deactivated account. */
  lemma ForgotPasswordRevealsDeactivated(st: Store, unknown: string, deactivated: string)
    requires UniqueEmails(st.users)
    requires !EmailTaken(st.users, unknown)
    requires EmailTaken(st.users, deactivated) && !st.users[UserByEmail(st.users, deactivated).value].isActive
    ensures ForgotPassword(st, unknown).code == 200 && ForgotPassword(st, deactivated).code == 403
  {
  }
}

=== FILE: admin_subscriptions.dfy ===
/**
 * The administrator's subscription operations: the status override, the dashboard
 * statistics, and the pagination arithmetic of the subscription listing.
 */
module AdminSubscriptions {
  import opened Wrappers
  import opened Domain

  // ---------------------------------------------------------------------------
  // Status override
  // ---------------------------------------------------------------------------

  /** `updateSubscriptionStatus`: any status may be written over any other. The update reads
      back the subscription's user and plan; a missing one makes it throw (500) and nothing
      is written. The `updatedAt` stamp is not modelled. */
  function UpdateSubscriptionStatus(st: Store, id: Id, status: SubscriptionStatus): (r: Reply<Subscription>)
    ensures r.code in {200, 404, 500}
    ensures r.code == 404 <==> id !in st.subscriptions
    ensures r.code == 500 <==>
      id in st.subscriptions
      && (st.subscriptions[id].userId !in st.users || st.subscriptions[id].planId !in st.plans)
    ensures r.code != 200 ==> r.store == st
    ensures r.code == 200 ==>
      && r.store.plans == st.plans && r.store.users == st.users && r.store.transactions == st.transactions
      && r.store.subscriptions.Keys == st.subscriptions.Keys
      && (forall s :: s in st.subscriptions && s != id ==> r.store.subscriptions[s] == st.subscriptions[s])
      && r.body == Some(r.store.subscriptions[id])
      && r.store.subscriptions[id].subscriptionStatus == status
      && r.store.subscriptions[id].paymentStatus == st.subscriptions[id].paymentStatus
      && r.store.subscriptions[id].startDate == st.subscriptions[id].startDate
      && r.store.subscriptions[id].endDate == st.subscriptions[id].endDate
      && r.store.subscriptions[id].userId == st.subscriptions[id].userId
      && r.store.subscriptions[id].planId == st.subscriptions[id].planId
  {
    if id !in st.subscriptions then Refuse(st, 404)
    else if st.subscriptions[id].userId !in st.users || st.subscriptions[id].planId !in st.plans then Refuse(st, 500)
    else
      var s := st.subscriptions[id].(subscriptionStatus := status);
      Reply(200, st.(subscriptions := st.subscriptions[id := s]), Some(s))
  }

  /** There is no transition guard: from every status, every status is reachable, including
      ACTIVE for a subscription that was never paid. */
  lemma OverrideReachesEveryStatus(st: Store, id: Id, from: SubscriptionStatus, to: SubscriptionStatus)
    requires ReferentialIntegrity(st)
    requires id in st.subscriptions && st.subscriptions[id].subscriptionStatus == from
    ensures var r := UpdateSubscriptionStatus(st, id, to);
            r.code == 200 && r.store.subscriptions[id].subscriptionStatus == to
  {
  }

  /** In particular, an unpaid subscription can be made ACTIVE, its payment status left PENDING. */
  lemma OverrideActivatesUnpaid(st: Store, id: Id)
    requires ReferentialIntegrity(st)
    requires id in st.subscriptions && st.subscriptions[id].paymentStatus == PaymentStatus.Pending
    ensures var s := UpdateSubscriptionStatus(st, id, Active).store.subscriptions[id];
            s.subscriptionStatus == Active && s.paymentStatus == PaymentStatus.Pending
  {
  }

  // ---------------------------------------------------------------------------
  // Statistics
  // ---------------------------------------------------------------------------

  function WithStatus(subs: map<Id, Subscription>, status: SubscriptionStatus): (ids: set<Id>)
    ensures ids <= subs.Keys
    ensures forall s :: s in ids <==> s in subs && subs[s].subscriptionStatus == status
  {
    set s | s in subs && subs[s].subscriptionStatus == status
  }

  datatype Stats = Stats(total: nat, active: nat, expired: nat, cancelled: nat, pending: nat, revenue: real)

  /** |A + B| for disjoint A and B. */
  lemma CardDisjointUnion<T>(a: set<T>, b: set<T>)
    requires a * b == {}
    ensures |a + b| == |a| + |b|
  {
    if a != {} {
      var x :| x in a;
      assert (a - {x}) + b == (a + b) - {x};
      CardDisjointUnion(a - {x}, b);
    }
  }

  /** The four status counts partition the subscriptions. */
  lemma {:induction false} StatusCountsPartition(subs: map<Id, Subscription>)
    ensures |WithStatus(subs, Active)| + |WithStatus(subs, Expired)| + |WithStatus(subs, Cancelled)|
            + |WithStatus(subs, SubscriptionStatus.Pending)| == |subs|
  {
    var a, e, c, p := WithStatus(subs, Active), WithStatus(subs, Expired),
                      WithStatus(subs, Cancelled), WithStatus(subs, SubscriptionStatus.Pending);
    CardDisjointUnion(a, e);
    CardDisjointUnion(a + e, c);
    CardDisjointUnion(a + e + c, p);
    assert a + e + c + p == subs.Keys;
  }

  /** The sum of the amounts of the transactions in `ids`. */
  ghost function SumAmounts(txs: map<Id, Transaction>, ids: set<Id>): real
    requires ids <= txs.Keys
    decreases |ids|
  {
    if ids == {} then 0.0
    else
      var x :| x in ids;
      txs[x].amount + SumAmounts(txs, ids - {x})
  }

  /** The sum does not depend on the element taken first. */
  lemma {:induction false} SumAmountsRemove(txs: map<Id, Transaction>, ids: set<Id>, y: Id)
    requires ids <= txs.Keys && y in ids
    ensures SumAmounts(txs, ids) == txs[y].amount + SumAmounts(txs, ids - {y})
    decreases |ids|
  {
    var x :| x in ids && SumAmounts(txs, ids) == txs[x].amount + SumAmounts(txs, ids - {x});
    if x != y {
      SumAmountsRemove(txs, ids - {x}, y);
      SumAmountsRemove(txs, ids - {y}, x);
      assert ids - {x} - {y} == ids - {y} - {x};
    }
  }

  function CompletedIds(txs: map<Id, Transaction>): (ids: set<Id>)
    ensures ids <= txs.Keys
    ensures forall t :: t in ids <==> t in txs && txs[t].paymentStatus == Completed
  {
    set t | t in txs && txs[t].paymentStatus == Completed
  }

  /** `aggregate({ _sum: { amount } })` over COMPLETED transactions, with `|| 0` for no rows. */
  method TotalRevenue(txs: map<Id, Transaction>) returns (revenue: real)
    ensures revenue == SumAmounts(txs, CompletedIds(txs))
  {
    var done: set<Id> := {};
    var remaining := CompletedIds(txs);
    revenue := 0.0;
    while remaining != {}
      invariant remaining <= CompletedIds(txs) && done == CompletedIds(txs) - remaining
      invariant revenue == SumAmounts(txs, done)
      decreases |remaining|
    {
      var x :| x in remaining;
      SumAmountsRemove(txs, done + {x}, x);
      assert (done + {x}) - {x} == done;
      revenue := revenue + txs[x].amount;
      done := done + {x};
      remaining := remaining - {x};
    }
    assert done == CompletedIds(txs);
  }

  /** With no COMPLETED transaction the revenue is 0; with non-negative amounts it is never negative. */
  lemma {:induction false} SumAmountsNonNegative(txs: map<Id, Transaction>, ids: set<Id>)
    requires ids <= txs.Keys
    requires forall t :: t in ids ==> txs[t].amount >= 0.0
    ensures SumAmounts(txs, ids) >= 0.0
    ensures ids == {} ==> SumAmounts(txs, ids) == 0.0
    decreases |ids|
  {
    if ids != {} {
      var x :| x in ids;
      SumAmountsRemove(txs, ids, x);
      SumAmountsNonNegative(txs, ids - {x});
    }
  }

  /** `getSubscriptionStats`. */
  method GetSubscriptionStats(st: Store) returns (s: Stats)
    ensures s.total == |st.subscriptions|
    ensures s.active == |WithStatus(st.subscriptions, Active)|
    ensures s.expired == |WithStatus(st.subscriptions, Expired)|
    ensures s.cancelled == |WithStatus(st.subscriptions, Cancelled)|
    ensures s.pending == |WithStatus(st.subscriptions, SubscriptionStatus.Pending)|
    ensures s.active + s.expired + s.cancelled + s.pending == s.total
    ensures s.revenue == SumAmounts(st.transactions, CompletedIds(st.transactions))
  {
    StatusCountsPartition(st.subscriptions);
    var revenue := TotalRevenue(st.transactions);
    s := Stats(|st.subscriptions|,
               |WithStatus(st.subscriptions, Active)|,
               |WithStatus(st.subscriptions, Expired)|,
               |WithStatus(st.subscriptions, Cancelled)|,
               |WithStatus(st.subscriptions, SubscriptionStatus.Pending)|,
               revenue);
  }

  // ---------------------------------------------------------------------------
  // Pagination of the subscription listing
  // ---------------------------------------------------------------------------

  const DefaultPage := 1
  const DefaultLimit := 10

  /** `skip = (page - 1) * limit`, with the query's defaults. */
  function Skip(page: Option<int>, limit: Option<int>): (skip: int)
    ensures page.None? && limit.None? ==> skip == 0
    ensures page == Some(1) ==> skip == 0
  {
    (page.GetOr(DefaultPage) - 1) * limit.GetOr(DefaultLimit)
  }

  /** `Math.ceil(total / limit)` as a JavaScript number: a division by zero gives Infinity,
      or NaN for 0 / 0. */
  datatype PageCount = Finite(n: int) | Infinite | NotANumber

  /** The least integer not below `x`. */
  function Ceil(x: real): (n: int)
    ensures x <= n as real < x + 1.0
  {
    if x == x.Floor as real then x.Floor else x.Floor + 1
  }

  /** `pages` for the listing, with the query's default limit. */
  function Pages(total: nat, limit: Option<int>): (p: PageCount)
    ensures limit.GetOr(DefaultLimit) == 0 ==> (p == NotANumber <==> total == 0) && (p == Infinite <==> total > 0)
    ensures limit.GetOr(DefaultLimit) > 0 ==>
      var l := limit.GetOr(DefaultLimit);
      p.Finite? && p.n >= 0 && (p.n - 1) * l < total <= p.n * l
  {
    var l := limit.GetOr(DefaultLimit);
    if l == 0 then (if total == 0 then NotANumber else Infinite)
    else
      var n := Ceil(total as real / l as real);
      CeilCovers(total, l, n);
      Finite(n)
  }

  /** The ceiling of `total / l` is the least number of `l`-row pages holding `total` rows. */
  lemma CeilCovers(total: nat, l: int, n: int)
    requires l != 0 && n == Ceil(total as real / l as real)
    ensures l > 0 ==> n >= 0 && (n - 1) * l < total <= n * l
  {
    if l > 0 {
      PagesBelow(total, l, n);
      PagesAbove(total, l, n);
    }
  }

  /** `n - 1` pages hold fewer than `total` rows when `n - 1 < total / l`. */
  lemma PagesBelow(total: nat, l: int, n: int)
    requires l > 0 && n as real - 1.0 < total as real / l as real
    ensures (n - 1) * l < total
  {
    var x, lr, m := total as real / l as real, l as real, (n - 1) as real;
    assert x * lr == total as real;
    assert (x - m) * lr > 0.0;
    assert (x - m) * lr == x * lr - m * lr;
    assert ((n - 1) * l) as real == m * lr;
  }

  /** `n` pages hold all `total` rows when `total / l <= n`. */
  lemma PagesAbove(total: nat, l: int, n: int)
    requires l > 0 && total as real / l as real <= n as real
    ensures total <= n * l && n >= 0
  {
    var x, lr, nr := total as real / l as real, l as real, n as real;
    assert x * lr == total as real;
    assert (nr - x) * lr >= 0.0;
    assert (nr - x) * lr == nr * lr - x * lr;
    assert (n * l) as real == nr * lr;
    assert x >= 0.0;
  }

  /** With a positive limit, every row of the listing falls on exactly one page between 1 and `pages`. */
  lemma PageOfRow(total: nat, limit: int, row: nat)
    requires limit > 0 && row < total
    ensures var page := row / limit + 1;
            && Pages(total, Some(limit)).Finite?
            && 1 <= page <= Pages(total, Some(limit)).n
            && Skip(Some(page), Some(limit)) <= row < Skip(Some(page), Some(limit)) + limit
  {
    var page := row / limit + 1;
    var pages := Pages(total, Some(limit)).n;
    assert (page - 1) * limit <= row;
  }

}

=== FILE: auth_gate.dfy ===
/**
 * The authentication middleware: `authenticate` (Bearer header required),
 * `optionalAuthenticate` (never blocks) and `authorize` (role list). Verifying the
 * JWT is a parameter: `verify(token)` is the decoded payload, or `None` when
 * `jsonwebtoken` throws.
 */
module AuthGate {
  import opened Wrappers
  import opened Domain

  /** The `req.user` the middleware attaches. */
  datatype Payload = Payload(userId: Id, email: string, role: Role)

  /** Either the request is answered with an error code, or `next()` runs with `req.user`. */
  datatype Gate = Reject(code: int) | Next(user: Option<Payload>)

  const BearerPrefix := "Bearer "

  predicate IsBearer(header: string) {
    |header| >= |BearerPrefix| && header[..|BearerPrefix|] == BearerPrefix
  }

  /** `authHeader.substring(7)`. */
  function BearerToken(header: string): (token: string)
    requires IsBearer(header)
    ensures header == BearerPrefix + token
  {
    header[|BearerPrefix|..]
  }

  /** `authenticate`. An absent or empty header is falsy, and `startsWith` is case-sensitive. */
  function Authenticate(header: Option<string>, verify: string -> Option<Payload>): (g: Gate)
    ensures g.Reject? ==> g.code == 401
    ensures g.Next? <==> header.Some? && IsBearer(header.value) && verify(BearerToken(header.value)).Some?
    ensures g.Next? ==> g.user.Some? && g.user == verify(BearerToken(header.value))
  {
    if header.None? || header.value == "" || !IsBearer(header.value) then Reject(401)
    else
      var decoded := verify(BearerToken(header.value));
      if decoded.None? then Reject(401) else Next(decoded)
  }

  /** The token read back is exactly the one put after "Bearer ". */
  lemma AuthenticateBearer(token: string, verify: string -> Option<Payload>)
    ensures Authenticate(Some(BearerPrefix + token), verify)
         == if verify(token).Some? then Next(verify(token)) else Reject(401)
  {
    var h := BearerPrefix + token;
    assert h[..|BearerPrefix|] == BearerPrefix;
    assert BearerToken(h) == token;
  }

  /** A lower-case scheme, as in "bearer abc", is refused without consulting the verifier. */
  lemma LowerCaseSchemeRefused(verify: string -> Option<Payload>)
    ensures Authenticate(Some("bearer abc"), verify) == Reject(401)
  {
    assert "bearer abc"[0] != BearerPrefix[0];
  }

  /** `optionalAuthenticate`: always proceeds; the user is set only for a Bearer header with a valid token. */
  function OptionalAuthenticate(header: Option<string>, verify: string -> Option<Payload>): (g: Gate)
    ensures g.Next?
    ensures g.user.Some? <==> Authenticate(header, verify).Next?
    ensures g.user.Some? ==> g.user == Authenticate(header, verify).user
  {
    if header.Some? && IsBearer(header.value) then Next(verify(BearerToken(header.value)))
    else Next(None)
  }

  /** `authorize(...roles)`. */
  function Authorize(user: Option<Payload>, roles: seq<Role>): (g: Gate)
    ensures g.Reject? ==> g.code == 401 || g.code == 403
    ensures g.Reject? && g.code == 401 <==> user.None?
    ensures g.Next? <==> user.Some? && user.value.role in roles
    ensures g.Next? ==> g.user == user
  {
    if user.None? then Reject(401)
    else if user.value.role !in roles then Reject(403)
    else Next(user)
  }

  /** Chained as the routes chain them: a request reaches the handler only with a valid
      token whose role is listed. */
  lemma AuthenticateThenAuthorize(header: Option<string>, verify: string -> Option<Payload>, roles: seq<Role>)
    ensures var a := Authenticate(header, verify);
            a.Next? && Authorize(a.user, roles).Next?
            <==> header.Some? && IsBearer(header.value)
                 && verify(BearerToken(header.value)).Some?
                 && verify(BearerToken(header.value)).value.role in roles
  {
  }
}

=== FILE: domain.dfy ===
/**
 * The persistent records of the gym server and the store that holds them: four tables
 * keyed by id (plans, users, subscriptions, transactions), as the relational schema
 * behind the controllers keeps them. Every handler of the model is a pure function from
 * a store (plus its request and the answers of external services) to a reply carrying
 * the HTTP status code and the store after the handler's writes.
 */
module Domain {
  import opened Wrappers

  type Id = string

  /** Wall-clock instants as milliseconds since the epoch, like `Date.now()`. */
  type Time = nat

  const MsPerMinute: nat := 60_000
  const MsPerDay: nat := 86_400_000

  datatype Role = STUDENT | STAFF | PUBLIC | ADMIN
  datatype Gender = MALE | FEMALE

  /** `Pending` exists in both status enums: write `SubscriptionStatus.Pending`. */
  datatype SubscriptionStatus = Pending | Active | Expired | Cancelled
  datatype PaymentStatus = Pending | Completed | Failed
  datatype PaymentMethod = Card | MobileMoney

  datatype Plan = Plan(
    name: string,
    description: string,
    price: real,
    duration: int,          // days
    targetRole: Role,
    features: seq<string>,
    isActive: bool)

  datatype User = User(
    email: string,
    password: string,       // the stored bcrypt hash
    role: Role,
    surname: string,
    otherNames: string,
    phone: string,
    gender: Gender,
    studentId: Option<string>,
    staffId: Option<string>,
    residence: bool,
    hallOfResidence: Option<string>,
    isActive: bool)

  datatype Subscription = Subscription(
    userId: Id,
    planId: Id,
    subscriptionStatus: SubscriptionStatus,
    paymentStatus: PaymentStatus,
    startDate: Option<int>,   // instants, as `Time`; an end date can precede the epoch when a duration is negative
    endDate: Option<int>)

  datatype Transaction = Transaction(
    subscriptionId: Id,
    amount: real,
    paymentMethod: PaymentMethod,
    paymentReference: string,
    paystackReference: Option<string>,
    paymentStatus: PaymentStatus,
    paidAt: Option<Time>,
    createdAt: Time)

  datatype Store = Store(
    plans: map<Id, Plan>,
    users: map<Id, User>,
    subscriptions: map<Id, Subscription>,
    transactions: map<Id, Transaction>)

  /** What a handler answers: the status code, the store after its writes, and its data. */
  datatype Reply<T> = Reply(code: int, store: Store, body: Option<T>)

  /** A reply that wrote nothing. */
  function Refuse<T>(st: Store, code: int): (r: Reply<T>)
    ensures r.store == st && r.code == code && r.body.None?
  {
    Reply(code, st, None)
  }

  /** `endDate = startDate + duration` calendar days, one day being 86 400 000 ms. */
  function AddDays(start: Time, days: int): int {
    start + days * MsPerDay
  }

  // ---------------------------------------------------------------------------
  // Integrity the database maintains
  // ---------------------------------------------------------------------------

  /** `paymentReference` carries a unique index. */
  predicate UniqueReferences(txs: map<Id, Transaction>) {
    forall a, b :: a in txs && b in txs && txs[a].paymentReference == txs[b].paymentReference ==> a == b
  }

  predicate ReferenceInUse(txs: map<Id, Transaction>, reference: string) {
    exists id :: id in txs && txs[id].paymentReference == reference
  }

  /** `findUnique({ where: { paymentReference } })`. */
  function TransactionByReference(txs: map<Id, Transaction>, reference: string): (r: Option<Id>)
    requires UniqueReferences(txs)
    ensures r.Some? <==> ReferenceInUse(txs, reference)
    ensures r.Some? ==> r.value in txs && txs[r.value].paymentReference == reference
  {
    if ReferenceInUse(txs, reference) then
      var id :| id in txs && txs[id].paymentReference == reference; Some(id)
    else None
  }

  /** Foreign keys: every subscription names an existing user and plan, every transaction an existing subscription. */
  predicate ReferentialIntegrity(st: Store) {
    && (forall s :: s in st.subscriptions ==> st.subscriptions[s].userId in st.users)
    && (forall s :: s in st.subscriptions ==> st.subscriptions[s].planId in st.plans)
    && (forall t :: t in st.transactions ==> st.transactions[t].subscriptionId in st.subscriptions)
  }

  /** At most one ACTIVE subscription per user: the rule `createSubscription` enforces when a
      subscription is created. */
  predicate AtMostOneActive(subs: map<Id, Subscription>) {
    forall a, b ::
      a in subs && b in subs && subs[a].userId == subs[b].userId
      && subs[a].subscriptionStatus == Active && subs[b].subscriptionStatus == Active
      ==> a == b
  }

  // ---------------------------------------------------------------------------
  // Payment references: "PAY-" + Date.now() + "-" + first 8 characters of the subscription id
  // ---------------------------------------------------------------------------

  predicate IsDigit(c: char) { '0' <= c <= '9' }

  predicate AllDigits(s: string) { forall i :: 0 <= i < |s| ==> IsDigit(s[i]) }

  /** The decimal value of a string of digits. */
  function DigitsValue(s: string): nat
    requires AllDigits(s)
  {
    if |s| == 0 then 0 else DigitsValue(s[..|s| - 1]) * 10 + (s[|s| - 1] - '0') as nat
  }

  /** The decimal rendering of a non-negative number, as a template literal prints it. */
  function DecimalString(n: nat): (s: string)
    ensures |s| > 0 && AllDigits(s)
    decreases n
  {
    var d := [('0' as int + n % 10) as char];
    if n < 10 then d else DecimalString(n / 10) + d
  }

  lemma {:induction false} DecimalStringRoundTrip(n: nat)
    ensures DigitsValue(DecimalString(n)) == n
    decreases n
  {
    var s := DecimalString(n);
    if n >= 10 {
      DecimalStringRoundTrip(n / 10);
      assert s[..|s| - 1] == DecimalString(n / 10);
    }
  }

  lemma DecimalStringInjective(m: nat, n: nat)
    requires DecimalString(m) == DecimalString(n)
    ensures m == n
  {
    DecimalStringRoundTrip(m);
    DecimalStringRoundTrip(n);
  }

  /** `id.substring(0, 8)`. */
  function ShortId(id: Id): (r: string)
    ensures |r| <= 8 && r <= id
    ensures |id| >= 8 ==> |r| == 8
  {
    if |id| <= 8 then id else id[..8]
  }

  function PaymentReference(now: Time, subscriptionId: Id): (r: string)
    ensures |r| > 5 && r[..4] == "PAY-"
  {
    "PAY-" + DecimalString(now) + "-" + ShortId(subscriptionId)
  }

  /** In `d + "-" + p` with `d` all digits, the first dash sits at index `|d|`. */
  lemma FirstDash(d: string, p: string)
    requires AllDigits(d)
    ensures (d + "-" + p)[|d|] == '-'
    ensures forall i :: 0 <= i < |d| ==> IsDigit((d + "-" + p)[i])
  {
  }

  /** A digit string followed by '-' can be split at that dash in one way only. */
  lemma SplitAtDash(d1: string, p1: string, d2: string, p2: string)
    requires AllDigits(d1) && AllDigits(d2)
    requires d1 + "-" + p1 == d2 + "-" + p2
    ensures d1 == d2 && p1 == p2
  {
    var a, b := d1 + "-" + p1, d2 + "-" + p2;
    FirstDash(d1, p1);
    FirstDash(d2, p2);
    if |d1| < |d2| {
      assert false;
    } else if |d2| < |d1| {
      assert false;
    }
    assert d1 == a[..|d1|] == b[..|d2|] == d2;
    assert p1 == a[|d1| + 1..] == b[|d2| + 1..] == p2;
  }

  /** Two references coincide exactly when they were minted in the same millisecond
      for subscription ids that share their first eight characters. */
  lemma PaymentReferenceInjective(t1: Time, s1: Id, t2: Time, s2: Id)
    ensures PaymentReference(t1, s1) == PaymentReference(t2, s2) <==> t1 == t2 && ShortId(s1) == ShortId(s2)
  {
    var r1, r2 := PaymentReference(t1, s1), PaymentReference(t2, s2);
    if r1 == r2 {
      var d1, d2 := DecimalString(t1), DecimalString(t2);
      assert r1[4..] == d1 + "-" + ShortId(s1);
      assert r2[4..] == d2 + "-" + ShortId(s2);
      SplitAtDash(d1, ShortId(s1), d2, ShortId(s2));
      DecimalStringInjective(t1, t2);
    }
  }
}

=== FILE: jobs.dfy ===
/**
 * The two scheduled jobs. The payment cleanup marks abandoned PENDING transactions FAILED
 * and expires their subscriptions, all in one database transaction; the expiry job moves
 * ACTIVE subscriptions whose end date has passed to EXPIRED. The schedule and the clock
 * are outside the model: `now` and the configured timeout are parameters.
 */
module Jobs {
  import opened Wrappers
  import opened Domain

  // ---------------------------------------------------------------------------
  // Payment cleanup
  // ---------------------------------------------------------------------------

  const DefaultTimeoutMinutes: nat := 30

  /** What `parseInt` yields. */
  datatype Number = Num(value: int) | NaN

  /** The longest prefix of `s` made of decimal digits. */
  function LeadingDigits(s: string): (d: string)
    ensures |d| <= |s| && d == s[..|d|] && AllDigits(d)
    ensures |d| < |s| ==> !IsDigit(s[|d|])
  {
    if |s| == 0 || !IsDigit(s[0]) then ""
    else
      var rest := LeadingDigits(s[1..]);
      assert s[..|rest| + 1] == [s[0]] + s[1..][..|rest|];
      [s[0]] + rest
  }

  /** `parseInt(process.env.PAYMENT_TIMEOUT_MINUTES || '30')`: an unset or empty variable
      means 30; otherwise the leading digits, or NaN when there are none. */
  function TimeoutMinutes(env: Option<string>): (r: Number)
    ensures env.None? || env == Some("") ==> r == Num(DefaultTimeoutMinutes as int)
    ensures env.Some? && env.value != "" ==> (r.NaN? <==> !IsDigit(env.value[0]))
    ensures r.Num? ==> r.value >= 0
  {
    var text := if env.None? || env.value == "" then "30" else env.value;
    var d := LeadingDigits(text);
    if d == "" then NaN
    else
      assert env.None? || env == Some("") ==> d == "30" && DigitsValue("30") == 30 by {
        if env.None? || env == Some("") {
          assert "30"[..2] == "30";
          assert DigitsValue("30"[..1]) == 3;
        }
      }
      Num(DigitsValue(d))
  }

  /** A variable holding the decimal spelling of `n` gives `n` minutes. */
  lemma TimeoutOfDecimal(n: nat)
    ensures TimeoutMinutes(Some(DecimalString(n))) == Num(n)
  {
    var s := DecimalString(n);
    DecimalStringRoundTrip(n);
    assert LeadingDigits(s) == s;
  }

  /** `timeoutDate`: `timeout` minutes before `now`. */
  function Cutoff(now: Time, timeout: int): int {
    now - timeout * MsPerMinute
  }

  /** The `findMany` filter: still PENDING, created strictly before the cut-off. */
  predicate Abandoned(t: Transaction, cutoff: int) {
    t.paymentStatus == PaymentStatus.Pending && t.createdAt < cutoff
  }

  function Selection(txs: map<Id, Transaction>, cutoff: int): (sel: set<Id>)
    ensures sel <= txs.Keys
    ensures forall id :: id in sel <==> id in txs && Abandoned(txs[id], cutoff)
  {
    set id | id in txs && Abandoned(txs[id], cutoff)
  }

  /** Some transaction of `done` belongs to subscription `sid`. */
  predicate PaysFor(txs: map<Id, Transaction>, done: set<Id>, sid: Id) {
    exists id :: id in done && id in txs && txs[id].subscriptionId == sid
  }

  /** The store once the transactions in `done` have been failed and their subscriptions expired. */
  function Cleaned(st: Store, done: set<Id>): (st': Store)
    ensures st'.plans == st.plans && st'.users == st.users
    ensures st'.transactions.Keys == st.transactions.Keys && st'.subscriptions.Keys == st.subscriptions.Keys
  {
    st.(transactions := map id | id in st.transactions ::
          if id in done then st.transactions[id].(paymentStatus := Failed) else st.transactions[id],
        subscriptions := map s | s in st.subscriptions ::
          if PaysFor(st.transactions, done, s)
          then st.subscriptions[s].(subscriptionStatus := Expired, paymentStatus := Failed)
          else st.subscriptions[s])
  }

  /** One turn of the job's loop: fail transaction `x`, then expire its subscription. */
  function FailOne(work: Store, x: Id, sid: Id): Store
    requires x in work.transactions && sid in work.subscriptions
  {
    work.(transactions := work.transactions[x := work.transactions[x].(paymentStatus := Failed)],
          subscriptions := work.subscriptions[sid := work.subscriptions[sid].(subscriptionStatus := Expired, paymentStatus := Failed)])
  }

  /** Failing one more transaction extends `Cleaned` by that transaction. */
  lemma CleanedStep(st: Store, done: set<Id>, x: Id)
    requires done <= st.transactions.Keys && x in st.transactions && x !in done
    requires st.transactions[x].subscriptionId in st.subscriptions
    ensures FailOne(Cleaned(st, done), x, st.transactions[x].subscriptionId) == Cleaned(st, done + {x})
  {
    var sid := st.transactions[x].subscriptionId;
    var a := FailOne(Cleaned(st, done), x, sid);
    var b := Cleaned(st, done + {x});
    assert a.transactions == b.transactions;
    forall s | s in st.subscriptions
      ensures a.subscriptions[s] == b.subscriptions[s]
    {
      if s == sid {
        assert PaysFor(st.transactions, done + {x}, s);
      } else {
        assert PaysFor(st.transactions, done + {x}, s) <==> PaysFor(st.transactions, done, s);
      }
    }
    assert a.subscriptions == b.subscriptions;
  }

  /** How a run of the job ends. */
  datatype CleanupOutcome =
    | InvalidTimeout      // NaN minutes give an invalid date and the query throws
    | NothingToDo         // the selection was empty: no writes
    | Marked(count: nat)  // committed
    | RolledBack          // an update threw inside the database transaction

  /** Some selected transaction's subscription is missing, so its update throws. */
  predicate Dangling(st: Store, sel: set<Id>)
    requires sel <= st.transactions.Keys
  {
    exists id :: id in sel && st.transactions[id].subscriptionId !in st.subscriptions
  }

  /** Failing nothing leaves the store as it is. */
  lemma CleanedNothing(st: Store)
    ensures Cleaned(st, {}) == st
  {
    assert Cleaned(st, {}).transactions == st.transactions;
    assert forall s :: !PaysFor(st.transactions, {}, s);
    assert Cleaned(st, {}).subscriptions == st.subscriptions;
  }

  /** One turn of the loop inside `$transaction`, on the store built so far. */
  method FailNext(st: Store, done: set<Id>, work: Store, x: Id) returns (work': Store)
    requires done <= st.transactions.Keys && x in st.transactions && x !in done
    requires st.transactions[x].subscriptionId in st.subscriptions
    requires work == Cleaned(st, done)
    ensures work' == Cleaned(st, done + {x})
  {
    CleanedStep(st, done, x);
    work' := FailOne(work, x, st.transactions[x].subscriptionId);
  }

  /** The loop inside `$transaction`: every selected transaction in turn, counting them. */
  method FailAll(st: Store, sel: set<Id>) returns (work: Store, count: nat, committed: bool)
    requires sel <= st.transactions.Keys
    ensures committed <==> !Dangling(st, sel)
    ensures committed ==> work == Cleaned(st, sel) && count == |sel|
  {
    CleanedNothing(st);
    work := st;
    var done: set<Id> := {};
    count := 0;
    while done != sel
      invariant done <= sel
      invariant count == |done|
      invariant work == Cleaned(st, done)
      invariant forall id :: id in done ==> st.transactions[id].subscriptionId in st.subscriptions
      decreases |sel - done|
    {
      var x :| x in sel - done;
      var sid := st.transactions[x].subscriptionId;
      if sid !in st.subscriptions {
        assert Dangling(st, sel) by { assert x in sel; }
        return work, count, false;
      }
      work := FailNext(st, done, work, x);
      done := done + {x};
      count := count + 1;
    }
    committed := true;
  }

  /** The cleanup job, one run. */
  method Cleanup(st: Store, now: Time, env: Option<string>) returns (st': Store, outcome: CleanupOutcome)
    ensures outcome == InvalidTimeout <==> TimeoutMinutes(env).NaN?
    ensures !outcome.Marked? ==> st' == st
    ensures TimeoutMinutes(env).Num? ==>
      var sel := Selection(st.transactions, Cutoff(now, TimeoutMinutes(env).value));
      && (outcome == NothingToDo <==> sel == {})
      && (outcome == RolledBack <==> sel != {} && Dangling(st, sel))
      && (outcome.Marked? ==> outcome.count == |sel| && st' == Cleaned(st, sel))
  {
    var minutes := TimeoutMinutes(env);
    if minutes.NaN? {
      return st, InvalidTimeout;
    }
    var sel := Selection(st.transactions, Cutoff(now, minutes.value));
    if sel == {} {
      return st, NothingToDo;
    }
    var work, count, committed := FailAll(st, sel);
    if committed {
      st', outcome := work, Marked(count);
    } else {
      st', outcome := st, RolledBack;
    }
  }

  /** What a committed cleanup leaves, row by row. */
  lemma CleanedRows(st: Store, sel: set<Id>)
    ensures forall id :: id in st.transactions ==>
      Cleaned(st, sel).transactions[id].paymentStatus == (if id in sel then Failed else st.transactions[id].paymentStatus)
    ensures forall id :: id in st.transactions && id !in sel ==> Cleaned(st, sel).transactions[id] == st.transactions[id]
    ensures forall id :: id in sel && id in st.transactions && st.transactions[id].subscriptionId in st.subscriptions ==>
      var s := Cleaned(st, sel).subscriptions[st.transactions[id].subscriptionId];
      s.subscriptionStatus == Expired && s.paymentStatus == Failed
  {
    forall id | id in sel && id in st.transactions && st.transactions[id].subscriptionId in st.subscriptions
      ensures var s := Cleaned(st, sel).subscriptions[st.transactions[id].subscriptionId];
              s.subscriptionStatus == Expired && s.paymentStatus == Failed
    {
      assert PaysFor(st.transactions, sel, st.transactions[id].subscriptionId);
    }
  }

  /** A completed payment is never failed by the cleanup, however old it is. */
  lemma CleanupSparesCompleted(st: Store, now: Time, timeout: int, id: Id)
    requires id in st.transactions && st.transactions[id].paymentStatus == Completed
    ensures Cleaned(st, Selection(st.transactions, Cutoff(now, timeout))).transactions[id] == st.transactions[id]
  {
  }

  // ---------------------------------------------------------------------------
  // Subscription expiry
  // ---------------------------------------------------------------------------

  /** The `updateMany` filter: ACTIVE with an end date strictly before `now` (a missing end date never matches). */
  predicate Lapsed(s: Subscription, now: Time) {
    s.subscriptionStatus == Active && s.endDate.Some? && s.endDate.value < now
  }

  /** `expireSubscriptions`: the store after the bulk update, and the update's count. */
  function ExpireSubscriptions(st: Store, now: Time): (r: (Store, nat))
    ensures r.0.plans == st.plans && r.0.users == st.users && r.0.transactions == st.transactions
    ensures r.0.subscriptions.Keys == st.subscriptions.Keys
    ensures forall s :: s in st.subscriptions && Lapsed(st.subscriptions[s], now) ==>
      r.0.subscriptions[s] == st.subscriptions[s].(subscriptionStatus := Expired)
    ensures forall s :: s in st.subscriptions && !Lapsed(st.subscriptions[s], now) ==>
      r.0.subscriptions[s] == st.subscriptions[s]
    ensures r.1 == |set s | s in st.subscriptions && Lapsed(st.subscriptions[s], now)|
  {
    var subs := st.subscriptions;
    (st.(subscriptions := map s | s in subs :: if Lapsed(subs[s], now) then subs[s].(subscriptionStatus := Expired) else subs[s]),
     |set s | s in subs && Lapsed(subs[s], now)|)
  }

  /** After a run, nothing lapsed at that instant is left ACTIVE. */
  lemma NothingLapsedAfterExpiry(st: Store, now: Time)
    ensures forall s :: s in ExpireSubscriptions(st, now).0.subscriptions ==>
      !Lapsed(ExpireSubscriptions(st, now).0.subscriptions[s], now)
  {
  }

  /** A second run at the same instant expires nothing and changes nothing. */
  lemma ExpiryIsIdempotent(st: Store, now: Time)
    ensures var once := ExpireSubscriptions(st, now).0;
            ExpireSubscriptions(once, now) == (once, 0)
  {
    var once := ExpireSubscriptions(st, now).0;
    NothingLapsedAfterExpiry(st, now);
    assert (set s | s in once.subscriptions && Lapsed(once.subscriptions[s], now)) == {};
    assert ExpireSubscriptions(once, now).0.subscriptions == once.subscriptions;
  }
}

=== FILE: lifecycle.dfy ===
/**
 * Properties of the subscription / payment lifecycle that involve several handlers:
 * the store invariants each of them keeps, the guarantees the webhook gives, and the
 * places where the handlers do less than the program's own checks intend: at most one
 * ACTIVE subscription per user, and a payment settled once.
 */
module Lifecycle {
  import opened Wrappers
  import opened Domain
  import AuthGate
  import Subscriptions
  import Payments
  import Jobs
  import AdminSubscriptions
  import PlanCatalogue

  /** A transaction carries a payment time exactly when it is COMPLETED. */
  predicate PaidAtMatchesStatus(txs: map<Id, Transaction>) {
    forall t :: t in txs ==> (txs[t].paidAt.Some? <==> txs[t].paymentStatus == Completed)
  }

  /** What every handler below keeps. */
  predicate Consistent(st: Store) {
    UniqueReferences(st.transactions) && ReferentialIntegrity(st) && PaidAtMatchesStatus(st.transactions)
  }

  /** With foreign keys in place, a transaction is always read with its subscription and plan. */
  lemma IntegrityLinks(st: Store, txId: Id)
    requires ReferentialIntegrity(st) && txId in st.transactions
    ensures Payments.Linked(st, txId)
  {
  }

  // ---------------------------------------------------------------------------
  // Each handler keeps the store consistent
  // ---------------------------------------------------------------------------

  lemma CreateSubscriptionKeepsConsistent(st: Store, caller: Option<AuthGate.Payload>, planId: Id,
                                          newSubId: Id, newTxId: Id, now: Time)
    requires Consistent(st)
    ensures Consistent(Subscriptions.CreateSubscription(st, caller, planId, newSubId, newTxId, now).store)
  {
    var r := Subscriptions.CreateSubscription(st, caller, planId, newSubId, newTxId, now);
    if r.code == 201 {
      var t := Subscriptions.PendingTransaction(newSubId, st.plans[planId].price, now);
      assert !ReferenceInUse(st.transactions, t.paymentReference);
    }
  }

  lemma InitializeKeepsConsistent(st: Store, caller: Option<AuthGate.Payload>, txId: Id,
                                  chosen: PaymentMethod, gatewayAccepts: Payments.InitRequest -> bool)
    requires Consistent(st)
    ensures Consistent(Payments.InitializePayment(st, caller, txId, chosen, gatewayAccepts).store)
  {
    var st' := Payments.InitializePayment(st, caller, txId, chosen, gatewayAccepts).store;
    assert forall t :: t in st.transactions ==> st'.transactions[t].paymentReference == st.transactions[t].paymentReference;
  }

  /** Settling a payment keeps the store consistent. */
  lemma SettleKeepsConsistent(st: Store, txId: Id, gatewayReference: string, now: Time)
    requires Consistent(st) && txId in st.transactions
    ensures Payments.Linked(st, txId)
    ensures Consistent(Payments.Settle(st, txId, gatewayReference, now))
  {
    var st' := Payments.Settle(st, txId, gatewayReference, now);
    assert forall t :: t in st.transactions ==> st'.transactions[t].paymentReference == st.transactions[t].paymentReference;
    assert forall t :: t in st.transactions ==> st'.transactions[t].subscriptionId == st.transactions[t].subscriptionId;
    assert forall s :: s in st.subscriptions ==> st'.subscriptions[s].userId == st.subscriptions[s].userId
                                                 && st'.subscriptions[s].planId == st.subscriptions[s].planId;
  }

  lemma VerifyKeepsConsistent(st: Store, caller: Option<AuthGate.Payload>, reference: string,
                              answer: Payments.VerifyAnswer, now: Time)
    requires Consistent(st)
    ensures Consistent(Payments.VerifyPayment(st, caller, reference, answer, now).store)
  {
    var r := Payments.VerifyPayment(st, caller, reference, answer, now);
    if r.code == 200 {
      SettleKeepsConsistent(st, r.body.value, answer.gatewayReference, now);
    }
  }

  lemma WebhookKeepsConsistent(st: Store, signature: Option<string>, secret: Option<string>, raw: string,
                               event: Payments.Event, hmac: (string, string) -> string, now: Time)
    requires Consistent(st)
    ensures Consistent(Payments.Webhook(st, signature, secret, raw, event, hmac, now).store)
  {
    var r := Payments.Webhook(st, signature, secret, raw, event, hmac, now);
    if r.store != st {
      var id :| id in st.transactions && st.transactions[id].paymentReference == event.reference
                && st.transactions[id].paymentStatus != Completed && Payments.Linked(st, id)
                && r.store == Payments.Settle(st, id, event.reference, now);
      SettleKeepsConsistent(st, id, event.reference, now);
    }
  }

  lemma CleanupKeepsConsistent(st: Store, sel: set<Id>, cutoff: int)
    requires Consistent(st) && sel == Jobs.Selection(st.transactions, cutoff)
    ensures Consistent(Jobs.Cleaned(st, sel))
  {
    var st' := Jobs.Cleaned(st, sel);
    assert forall t :: t in st.transactions ==> st'.transactions[t].paymentReference == st.transactions[t].paymentReference;
    assert forall t :: t in st.transactions ==> st'.transactions[t].subscriptionId == st.transactions[t].subscriptionId;
    assert forall s :: s in st.subscriptions ==> st'.subscriptions[s].userId == st.subscriptions[s].userId
                                                 && st'.subscriptions[s].planId == st.subscriptions[s].planId;
  }

  lemma ExpiryKeepsConsistent(st: Store, now: Time)
    requires Consistent(st)
    ensures Consistent(Jobs.ExpireSubscriptions(st, now).0)
  {
  }

  lemma OverrideKeepsConsistent(st: Store, id: Id, status: SubscriptionStatus)
    requires Consistent(st)
    ensures Consistent(AdminSubscriptions.UpdateSubscriptionStatus(st, id, status).store)
  {
  }

  lemma DeletePlanKeepsConsistent(st: Store, id: Id)
    requires Consistent(st)
    ensures Consistent(PlanCatalogue.DeletePlan(st, id).store)
  {
    PlanCatalogue.DeleteKeepsReferentialIntegrity(st, id);
  }

  // ---------------------------------------------------------------------------
  // COMPLETED is never left
  // ---------------------------------------------------------------------------

  /** `initializePayment` refuses a COMPLETED transaction before writing anything. */
  lemma InitializeSparesCompleted(st: Store, txId: Id, caller: Option<AuthGate.Payload>, chosen: PaymentMethod,
                                  gatewayAccepts: Payments.InitRequest -> bool)
    requires txId in st.transactions && st.transactions[txId].paymentStatus == Completed
    ensures Payments.InitializePayment(st, caller, txId, chosen, gatewayAccepts).store.transactions[txId]
            == st.transactions[txId]
  {
  }

  /** The webhook settles only transactions that are not COMPLETED, and a settlement touches
      no other transaction. */
  lemma WebhookSparesCompleted(st: Store, txId: Id, signature: Option<string>, secret: Option<string>,
                               raw: string, event: Payments.Event, hmac: (string, string) -> string, now: Time)
    requires UniqueReferences(st.transactions)
    requires txId in st.transactions && st.transactions[txId].paymentStatus == Completed
    ensures Payments.Webhook(st, signature, secret, raw, event, hmac, now).store.transactions[txId]
            == st.transactions[txId]
  {
    var r := Payments.Webhook(st, signature, secret, raw, event, hmac, now);
    if r.store != st {
      var id :| id in st.transactions && st.transactions[id].paymentReference == event.reference
                && st.transactions[id].paymentStatus != Completed && Payments.Linked(st, id)
                && r.store == Payments.Settle(st, id, event.reference, now);
      assert id != txId;
    }
  }

  /** `verifyPayment` may rewrite a COMPLETED transaction (with a new payment time), but it
      stays COMPLETED. */
  lemma VerifyKeepsCompleted(st: Store, txId: Id, caller: Option<AuthGate.Payload>, reference: string,
                             answer: Payments.VerifyAnswer, now: Time)
    requires UniqueReferences(st.transactions)
    requires txId in st.transactions && st.transactions[txId].paymentStatus == Completed
    ensures Payments.VerifyPayment(st, caller, reference, answer, now).store.transactions[txId].paymentStatus == Completed
  {
  }

  // ---------------------------------------------------------------------------
  // Where the handlers do less than their own checks intend
  // ---------------------------------------------------------------------------

  /** `verifyPayment` has no status guard: a transaction the cleanup job marked FAILED, whose
      subscription it EXPIRED, is revived to COMPLETED and its subscription to ACTIVE. */
  lemma VerifyRevivesFailed(st: Store, caller: Option<AuthGate.Payload>, txId: Id,
                            answer: Payments.VerifyAnswer, now: Time)
    requires Consistent(st) && txId in st.transactions
    requires st.transactions[txId].paymentStatus == Failed
    requires Subscriptions.SignedIn(caller) && Payments.Confirmed(answer)
    requires st.subscriptions[st.transactions[txId].subscriptionId].userId == caller.value.userId
    ensures var r := Payments.VerifyPayment(st, caller, st.transactions[txId].paymentReference, answer, now);
            && r.code == 200
            && r.store.transactions[txId].paymentStatus == Completed
            && r.store.subscriptions[st.transactions[txId].subscriptionId].subscriptionStatus == Active
  {
    assert TransactionByReference(st.transactions, st.transactions[txId].paymentReference) == Some(txId);
  }

  /** Verifying an already settled payment again restarts the subscription: its start and end
      dates are recomputed from the new `now`. */
  lemma VerifyRecomputesDates(st: Store, caller: Option<AuthGate.Payload>, txId: Id,
                              answer: Payments.VerifyAnswer, now1: Time, now2: Time)
    requires Consistent(st) && txId in st.transactions
    requires Subscriptions.SignedIn(caller) && Payments.Confirmed(answer)
    requires st.subscriptions[st.transactions[txId].subscriptionId].userId == caller.value.userId
    requires now1 < now2
    ensures var ref := st.transactions[txId].paymentReference;
            var sid := st.transactions[txId].subscriptionId;
            var r1 := Payments.VerifyPayment(st, caller, ref, answer, now1);
            var r2 := Payments.VerifyPayment(r1.store, caller, ref, answer, now2);
            && r1.code == 200 && r2.code == 200
            && r1.store.transactions[txId].paymentStatus == Completed
            && r2.store.subscriptions[sid].startDate == Some(now2 as int)
            && r2.store.subscriptions[sid].endDate.value - r1.store.subscriptions[sid].endDate.value == now2 - now1
  {
    var ref := st.transactions[txId].paymentReference;
    assert TransactionByReference(st.transactions, ref) == Some(txId);
    var r1 := Payments.VerifyPayment(st, caller, ref, answer, now1);
    SettleKeepsConsistent(st, txId, answer.gatewayReference, now1);
    assert TransactionByReference(r1.store.transactions, ref) == Some(txId);
  }

  /** The webhook, by contrast, settles a payment at most once: after it has settled a
      transaction, a later delivery of the same event leaves the dates alone. */
  lemma WebhookSettlesOnce(st: Store, signature: Option<string>, secret: Option<string>, raw: string,
                           event: Payments.Event, hmac: (string, string) -> string, now1: Time, now2: Time)
    requires UniqueReferences(st.transactions)
    ensures var r1 := Payments.Webhook(st, signature, secret, raw, event, hmac, now1);
            UniqueReferences(r1.store.transactions)
            && Payments.Webhook(r1.store, signature, secret, raw, event, hmac, now2).store.subscriptions
               == r1.store.subscriptions
  {
    Payments.WebhookRedeliveryIsNoOp(st, signature, secret, raw, event, hmac, now1, now2);
  }

  /** "One ACTIVE subscription per user" is checked only at creation. A user can open two
      PENDING subscriptions (the first does not block the second) and pay both; the webhook
      then activates both, and the store holds two ACTIVE subscriptions for one user. */
  lemma TwoActiveSubscriptions(st: Store, caller: Option<AuthGate.Payload>, planId: Id,
                               s1: Id, t1: Id, s2: Id, t2: Id, now: Time,
                               secret: string, raw: string, hmac: (string, string) -> string)
    requires Consistent(st) && hmac(secret, raw) != ""
    requires Subscriptions.CreateSubscription(st, caller, planId, s1, t1, now).code == 201
    requires var a := Subscriptions.CreateSubscription(st, caller, planId, s1, t1, now).store;
             s2 !in a.subscriptions && t2 !in a.transactions
             && !ReferenceInUse(a.transactions, PaymentReference(now, s2))
    ensures var a := Subscriptions.CreateSubscription(st, caller, planId, s1, t1, now).store;
            var b := Subscriptions.CreateSubscription(a, caller, planId, s2, t2, now);
            b.code == 201 &&
            var sign := Some(hmac(secret, raw));
            var c := Payments.Webhook(b.store, sign, Some(secret), raw,
                                      Payments.Event("charge.success", PaymentReference(now, s1)), hmac, now).store;
            UniqueReferences(c.transactions) &&
            var d := Payments.Webhook(c, sign, Some(secret), raw,
                                      Payments.Event("charge.success", PaymentReference(now, s2)), hmac, now).store;
            && d.subscriptions[s1].subscriptionStatus == Active
            && d.subscriptions[s2].subscriptionStatus == Active
            && d.subscriptions[s1].userId == d.subscriptions[s2].userId
            && !AtMostOneActive(d.subscriptions)
  {
    var a := Subscriptions.CreateSubscription(st, caller, planId, s1, t1, now).store;
    CreateSubscriptionKeepsConsistent(st, caller, planId, s1, t1, now);
    assert !Subscriptions.HasActive(a.subscriptions, caller.value.userId) by {
      assert forall s :: s in a.subscriptions && s != s1 ==> a.subscriptions[s] == st.subscriptions[s];
    }
    var b := Subscriptions.CreateSubscription(a, caller, planId, s2, t2, now);
    assert b.code == 201;
    CreateSubscriptionKeepsConsistent(a, caller, planId, s2, t2, now);
    var sign := Some(hmac(secret, raw));
    var ref1, ref2 := PaymentReference(now, s1), PaymentReference(now, s2);
    assert s1 != s2;
    assert b.store.transactions[t1].paymentReference == ref1;
    assert b.store.transactions[t2].paymentReference == ref2;
    assert t1 != t2;
    Payments.WebhookSettlesPending(b.store, secret, raw, t1, hmac, now);
    var c := Payments.Webhook(b.store, sign, Some(secret), raw, Payments.Event("charge.success", ref1), hmac, now).store;
    assert c == Payments.Settle(b.store, t1, ref1, now);
    SettleKeepsConsistent(b.store, t1, ref1, now);
    assert c.transactions[t2] == b.store.transactions[t2];
    Payments.WebhookSettlesPending(c, secret, raw, t2, hmac, now);
    var d := Payments.Webhook(c, sign, Some(secret), raw, Payments.Event("charge.success", ref2), hmac, now).store;
    assert d == Payments.Settle(c, t2, ref2, now);
    assert d.subscriptions[s1] == c.subscriptions[s1];
  }

  /** End to end: creating a subscription and receiving the gateway's confirmation leaves it
      ACTIVE and paid, running for the plan's duration from the moment of payment. */
  lemma CreateThenWebhookActivates(st: Store, caller: Option<AuthGate.Payload>, planId: Id, subId: Id, txId: Id,
                                   created: Time, paid: Time, secret: string, raw: string,
                                   hmac: (string, string) -> string)
    requires Consistent(st) && hmac(secret, raw) != ""
    requires Subscriptions.CreateSubscription(st, caller, planId, subId, txId, created).code == 201
    ensures var a := Subscriptions.CreateSubscription(st, caller, planId, subId, txId, created).store;
            var b := Payments.Webhook(a, Some(hmac(secret, raw)), Some(secret), raw,
                                      Payments.Event("charge.success", PaymentReference(created, subId)), hmac, paid).store;
            && b.transactions[txId].paymentStatus == Completed && b.transactions[txId].paidAt == Some(paid)
            && b.subscriptions[subId].subscriptionStatus == Active
            && b.subscriptions[subId].paymentStatus == Completed
            && b.subscriptions[subId].startDate == Some(paid as int)
            && b.subscriptions[subId].endDate == Some(paid + st.plans[planId].duration * MsPerDay)
  {
    var a := Subscriptions.CreateSubscription(st, caller, planId, subId, txId, created).store;
    CreateSubscriptionKeepsConsistent(st, caller, planId, subId, txId, created);
    Payments.WebhookSettlesPending(a, secret, raw, txId, hmac, paid);
  }
}

=== FILE: markup.dfy ===
/**
 * The developer revenue share: every plan price is marked up by 5 %, and the markup is
 * later split off again from a marked-up total. Modelled over exact reals, so the
 * round trips hold exactly (the source computes in binary floating point).
 */
module Markup {

  /** DEVELOPER_MARKUP_PERCENTAGE. */
  const MarkupPercentage: real := 5.0

  const Factor: real := 1.0 + MarkupPercentage / 100.0

  /** `calculatePriceWithMarkup`: the base price plus 5 % of it. */
  function PriceWithMarkup(basePrice: real): (r: real)
    ensures r - basePrice == basePrice * MarkupPercentage / 100.0
    ensures basePrice >= 0.0 ==> r >= basePrice
  {
    basePrice * Factor
  }

  /** `calculateBasePrice`: the price whose 5 % markup is the given total. */
  function BasePrice(markedUpPrice: real): (r: real)
    ensures r + r * MarkupPercentage / 100.0 == markedUpPrice
    ensures markedUpPrice >= 0.0 ==> 0.0 <= r <= markedUpPrice
  {
    markedUpPrice / Factor
  }

  /** `calculateDeveloperShare`: what is left of a total once the base price is taken out. */
  function DeveloperShare(totalAmount: real): (r: real)
    ensures r + BasePrice(totalAmount) == totalAmount
    ensures totalAmount >= 0.0 ==> r >= 0.0
    ensures r * 21.0 == totalAmount
  {
    totalAmount - BasePrice(totalAmount)
  }

  lemma BaseOfMarkup(b: real)
    ensures BasePrice(PriceWithMarkup(b)) == b
  {
  }

  lemma MarkupOfBase(m: real)
    ensures PriceWithMarkup(BasePrice(m)) == m
  {
  }

  /** The developer's cut of a marked-up price is exactly 5 % of the base price. */
  lemma ShareOfMarkedUpPrice(b: real)
    ensures DeveloperShare(PriceWithMarkup(b)) == b * MarkupPercentage / 100.0
  {
  }

  /** A worked instance: 105 splits into 100 for the gym and 5 for the developers. */
  lemma SplitOf105()
    ensures BasePrice(105.0) == 100.0 && DeveloperShare(105.0) == 5.0 && PriceWithMarkup(100.0) == 105.0
  {
  }
}

=== FILE: passwords.dfy ===
/**
 * Password strength rules. The member-facing rule (user validators and the registration
 * page) and the administrator rule differ only in their set of special characters.
 * Character classes follow the regular expressions literally: `[A-Z]`, `[a-z]`,
 * `[0-9]` (and `\d`, which without the unicode flag is the same class).
 */
module Passwords {

  const MinLength: nat := 8

  predicate IsUpper(c: char) { 'A' <= c <= 'Z' }
  predicate IsLower(c: char) { 'a' <= c <= 'z' }
  predicate IsDigit(c: char) { '0' <= c <= '9' }

  /** The class `[!@#$%^&*(),.?":{}|<>]`. */
  predicate IsUserSpecial(c: char) {
    c in {'!', '@', '#', '$', '%', '^', '&', '*', '(', ')', ',', '.', '?', '"', ':', '{', '}', '|', '<', '>'}
  }

  /** The class `[@$!%*?&#]`. */
  predicate IsAdminSpecial(c: char) {
    c in {'@', '$', '!', '%', '*', '?', '&', '#'}
  }

  predicate HasUpper(p: string) { exists i :: 0 <= i < |p| && IsUpper(p[i]) }
  predicate HasLower(p: string) { exists i :: 0 <= i < |p| && IsLower(p[i]) }
  predicate HasDigit(p: string) { exists i :: 0 <= i < |p| && IsDigit(p[i]) }
  predicate HasUserSpecial(p: string) { exists i :: 0 <= i < |p| && IsUserSpecial(p[i]) }
  predicate HasAdminSpecial(p: string) { exists i :: 0 <= i < |p| && IsAdminSpecial(p[i]) }

  /** The member `passwordSchema`. */
  predicate UserPasswordOk(p: string) {
    |p| >= MinLength && HasUpper(p) && HasLower(p) && HasDigit(p) && HasUserSpecial(p)
  }

  /** The administrator `passwordSchema`. */
  predicate AdminPasswordOk(p: string) {
    |p| >= MinLength && HasUpper(p) && HasLower(p) && HasDigit(p) && HasAdminSpecial(p)
  }

  /** Every administrator special character is a member special character, and '^' is not an administrator one. */
  lemma AdminSpecialsAreUserSpecials(c: char)
    ensures IsAdminSpecial(c) ==> IsUserSpecial(c)
    ensures IsUserSpecial('^') && !IsAdminSpecial('^')
  {
  }

  /** So the administrator rule is at least as strict as the member rule... */
  lemma AdminPasswordIsUserPassword(p: string)
    requires AdminPasswordOk(p)
    ensures UserPasswordOk(p)
  {
    var i :| 0 <= i < |p| && IsAdminSpecial(p[i]);
    AdminSpecialsAreUserSpecials(p[i]);
  }

  /** ... and strictly stricter. */
  lemma UserPasswordNotAdminPassword()
    ensures UserPasswordOk("Abcdefg1^") && !AdminPasswordOk("Abcdefg1^")
  {
    var p := "Abcdefg1^";
    assert IsUpper(p[0]) && IsLower(p[1]) && IsDigit(p[7]) && IsUserSpecial(p[8]);
    assert forall i :: 0 <= i < |p| ==> !IsAdminSpecial(p[i]);
  }

  /** Single-pass classification, as each `.regex` test scans the string. */
  method Classify(p: string) returns (upper: bool, lower: bool, digit: bool, userSpecial: bool, adminSpecial: bool)
    ensures upper == HasUpper(p) && lower == HasLower(p) && digit == HasDigit(p)
    ensures userSpecial == HasUserSpecial(p) && adminSpecial == HasAdminSpecial(p)
  {
    upper, lower, digit, userSpecial, adminSpecial := false, false, false, false, false;
    var k := 0;
    while k < |p|
      invariant 0 <= k <= |p|
      invariant upper == HasUpper(p[..k]) && lower == HasLower(p[..k]) && digit == HasDigit(p[..k])
      invariant userSpecial == HasUserSpecial(p[..k]) && adminSpecial == HasAdminSpecial(p[..k])
    {
      var c := p[k];
      assert p[..k + 1] == p[..k] + [c];
      upper := upper || IsUpper(c);
      lower := lower || IsLower(c);
      digit := digit || IsDigit(c);
      userSpecial := userSpecial || IsUserSpecial(c);
      adminSpecial := adminSpecial || IsAdminSpecial(c);
      k := k + 1;
    }
    assert p[..k] == p;
  }
}

=== FILE: payments.dfy ===
/**
 * The payment handlers: `initializePayment` (record the payment method, ask the gateway for
 * a checkout), `verifyPayment` (the member's return from checkout) and the gateway webhook.
 *
 * The gateway is a parameter: for initialization, whether it answers with a truthy
 * `status`; for verification, its answer or `Unreachable` when the call throws. The webhook
 * signature check takes the HMAC-SHA512 function and the serialised body as parameters.
 * A transaction is always read together with its subscription and that subscription's plan
 * (and, for initialization, its user); a required relation that is missing makes the read
 * throw, answered with 500 before any write.
 */
module Payments {
  import opened Wrappers
  import opened Domain
  import AuthGate
  import Subscriptions

  // ---------------------------------------------------------------------------
  // Shared writes
  // ---------------------------------------------------------------------------

  /** The transaction's subscription and plan both exist. */
  predicate Linked(st: Store, txId: Id)
    requires txId in st.transactions
  {
    && st.transactions[txId].subscriptionId in st.subscriptions
    && st.subscriptions[st.transactions[txId].subscriptionId].planId in st.plans
  }

  /** The transaction row after a confirmed payment. */
  function Paid(t: Transaction, gatewayReference: string, now: Time): (u: Transaction)
    ensures u.paymentStatus == Completed && u.paidAt == Some(now) && u.paystackReference == Some(gatewayReference)
    ensures u.subscriptionId == t.subscriptionId && u.amount == t.amount && u.paymentReference == t.paymentReference
    ensures u.paymentMethod == t.paymentMethod && u.createdAt == t.createdAt
  {
    t.(paymentStatus := Completed, paystackReference := Some(gatewayReference), paidAt := Some(now))
  }

  /** The subscription row after a confirmed payment: ACTIVE from now for `duration` days. */
  function Activated(s: Subscription, duration: int, now: Time): (u: Subscription)
    ensures u.subscriptionStatus == Active && u.paymentStatus == Completed
    ensures u.startDate == Some(now as int) && u.endDate == Some(now + duration * MsPerDay)
    ensures u.userId == s.userId && u.planId == s.planId
  {
    s.(subscriptionStatus := Active, paymentStatus := Completed,
       startDate := Some(now as int), endDate := Some(AddDays(now, duration)))
  }

  /** Both writes of a confirmed payment, as `verifyPayment` and the webhook make them. */
  function Settle(st: Store, txId: Id, gatewayReference: string, now: Time): (st': Store)
    requires txId in st.transactions && Linked(st, txId)
    ensures st'.plans == st.plans && st'.users == st.users
    ensures st'.transactions.Keys == st.transactions.Keys && st'.subscriptions.Keys == st.subscriptions.Keys
    ensures forall t :: t in st.transactions && t != txId ==> st'.transactions[t] == st.transactions[t]
    ensures var sid := st.transactions[txId].subscriptionId;
            forall s :: s in st.subscriptions && s != sid ==> st'.subscriptions[s] == st.subscriptions[s]
  {
    var t := st.transactions[txId];
    var s := st.subscriptions[t.subscriptionId];
    st.(transactions := st.transactions[txId := Paid(t, gatewayReference, now)],
        subscriptions := st.subscriptions[t.subscriptionId := Activated(s, st.plans[s.planId].duration, now)])
  }

  // ---------------------------------------------------------------------------
  // initializePayment
  // ---------------------------------------------------------------------------

  /** The body posted to the gateway's `transaction/initialize`. */
  datatype InitRequest = InitRequest(email: string, amountMinor: int, reference: string, channels: seq<string>)

  /** `Math.round`: the nearest integer, halves rounded up. */
  function Round(x: real): (n: int)
    ensures x - 0.5 < n as real <= x + 0.5
  {
    (x + 0.5).Floor
  }

  /** A whole number of hundredths goes to the gateway as exactly that many minor units. */
  lemma RoundOfHundredths(n: int)
    ensures Round((n as real / 100.0) * 100.0) == n
  {
    assert (n as real / 100.0) * 100.0 == n as real;
  }

  function ChannelFor(chosen: PaymentMethod): (c: seq<string>)
    ensures c == ["mobile_money"] <==> chosen.MobileMoney?
    ensures c == ["card"] <==> chosen.Card?
  {
    if chosen.MobileMoney? then ["mobile_money"]
    else
      assert ["card"][0] != ["mobile_money"][0];
      ["card"]
  }

  function InitRequestFor(t: Transaction, email: string, chosen: PaymentMethod): (q: InitRequest)
    ensures q.email == email && q.reference == t.paymentReference && q.channels == ChannelFor(chosen)
    ensures (q.amountMinor as real) - 0.5 <= t.amount * 100.0 < (q.amountMinor as real) + 0.5
  {
    InitRequest(email, Round(t.amount * 100.0), t.paymentReference, ChannelFor(chosen))
  }

  /** The caller passed the 401 check and the transaction was read with its subscription,
      plan and user, so ownership can be decided. */
  predicate Readable(st: Store, caller: Option<AuthGate.Payload>, txId: Id) {
    && Subscriptions.SignedIn(caller) && caller.value.email != ""
    && txId in st.transactions && Linked(st, txId)
    && st.subscriptions[st.transactions[txId].subscriptionId].userId in st.users
  }

  /** The owner of a linked transaction. */
  function Owner(st: Store, txId: Id): Id
    requires txId in st.transactions && Linked(st, txId)
  {
    st.subscriptions[st.transactions[txId].subscriptionId].userId
  }

  /** `initializePayment`. `gatewayAccepts(q)` is whether the gateway's reply to `q` has a
      truthy `status`; the body of a 200 is the request the gateway accepted. */
  function InitializePayment(st: Store, caller: Option<AuthGate.Payload>, txId: Id, chosen: PaymentMethod,
                             gatewayAccepts: InitRequest -> bool): (r: Reply<InitRequest>)
    ensures r.code in {200, 400, 401, 403, 404, 500}
    ensures r.code == 401 <==> !Subscriptions.SignedIn(caller) || caller.value.email == ""
    ensures r.code == 404 <==> Subscriptions.SignedIn(caller) && caller.value.email != "" && txId !in st.transactions
    ensures r.code == 403 <==> Readable(st, caller, txId) && Owner(st, txId) != caller.value.userId
    ensures r.code == 400 <==>
      && Readable(st, caller, txId) && Owner(st, txId) == caller.value.userId
      && st.transactions[txId].paymentStatus == Completed
    ensures r.code == 200 <==>
      && Readable(st, caller, txId) && Owner(st, txId) == caller.value.userId
      && st.transactions[txId].paymentStatus != Completed
      && gatewayAccepts(InitRequestFor(st.transactions[txId], caller.value.email, chosen))
    ensures r.code in {400, 401, 403, 404} ==> r.store == st
    ensures r.store != st ==>
      && Readable(st, caller, txId) && Owner(st, txId) == caller.value.userId
      && st.transactions[txId].paymentStatus != Completed
      && r.store == st.(transactions := st.transactions[txId := st.transactions[txId].(paymentMethod := chosen)])
    ensures r.code == 200 ==>
      && txId in st.transactions
      && r.store == st.(transactions := st.transactions[txId := st.transactions[txId].(paymentMethod := chosen)])
      && r.body == Some(InitRequestFor(st.transactions[txId], caller.value.email, chosen))
  {
    if !Subscriptions.SignedIn(caller) || caller.value.email == "" then Refuse(st, 401)
    else if txId !in st.transactions then Refuse(st, 404)
    else if !Linked(st, txId) || st.subscriptions[st.transactions[txId].subscriptionId].userId !in st.users then Refuse(st, 500)
    else
      var t := st.transactions[txId];
      if st.subscriptions[t.subscriptionId].userId != caller.value.userId then Refuse(st, 403)
      else if t.paymentStatus == Completed then Refuse(st, 400)
      else
        var st1 := st.(transactions := st.transactions[txId := t.(paymentMethod := chosen)]);
        var q := InitRequestFor(t, caller.value.email, chosen);
        if gatewayAccepts(q) then Reply(200, st1, Some(q)) else Reply(500, st1, None)
  }

  /** Initialization never touches a status: payment, subscription and every other row are kept. */
  lemma InitializeKeepsStatuses(st: Store, caller: Option<AuthGate.Payload>, txId: Id, chosen: PaymentMethod,
                                gatewayAccepts: InitRequest -> bool)
    ensures var st' := InitializePayment(st, caller, txId, chosen, gatewayAccepts).store;
            && st'.subscriptions == st.subscriptions && st'.plans == st.plans && st'.users == st.users
            && st'.transactions.Keys == st.transactions.Keys
            && forall t :: t in st.transactions ==>
                 st'.transactions[t].paymentStatus == st.transactions[t].paymentStatus
                 && st'.transactions[t].paidAt == st.transactions[t].paidAt
  {
  }

  // ---------------------------------------------------------------------------
  // verifyPayment
  // ---------------------------------------------------------------------------

  /** The gateway's answer to `transaction/verify/:reference`. */
  datatype VerifyAnswer =
    | Unreachable
    | Answer(status: bool, dataStatus: string, gatewayReference: string)

  predicate Confirmed(a: VerifyAnswer) {
    a.Answer? && a.status && a.dataStatus == "success"
  }

  /** `verifyPayment`. It does not look at the transaction's current status: a COMPLETED or
      FAILED transaction is settled again, with fresh dates. */
  function VerifyPayment(st: Store, caller: Option<AuthGate.Payload>, reference: string,
                         answer: VerifyAnswer, now: Time): (r: Reply<Id>)
    requires UniqueReferences(st.transactions)
    ensures r.code in {200, 400, 401, 403, 404, 500}
    ensures r.code == 401 <==> !Subscriptions.SignedIn(caller)
    ensures r.code == 400 <==> Subscriptions.SignedIn(caller) && answer.Answer? && !Confirmed(answer)
    ensures r.code == 404 <==> Subscriptions.SignedIn(caller) && Confirmed(answer) && !ReferenceInUse(st.transactions, reference)
    ensures r.code == 403 <==>
      && Subscriptions.SignedIn(caller) && Confirmed(answer) && ReferenceInUse(st.transactions, reference)
      && var id := TransactionByReference(st.transactions, reference).value;
         Linked(st, id) && Owner(st, id) != caller.value.userId
    ensures r.code == 200 <==>
      && Subscriptions.SignedIn(caller) && Confirmed(answer) && ReferenceInUse(st.transactions, reference)
      && var id := TransactionByReference(st.transactions, reference).value;
         Linked(st, id) && Owner(st, id) == caller.value.userId
    ensures r.code != 200 ==> r.store == st
    ensures r.code == 200 ==>
      && r.body.Some? && r.body.value in st.transactions
      && st.transactions[r.body.value].paymentReference == reference
      && Linked(st, r.body.value)
      && st.subscriptions[st.transactions[r.body.value].subscriptionId].userId == caller.value.userId
      && Confirmed(answer)
      && r.store == Settle(st, r.body.value, answer.gatewayReference, now)
  {
    if !Subscriptions.SignedIn(caller) then Refuse(st, 401)
    else if answer.Unreachable? then Refuse(st, 500)
    else if !Confirmed(answer) then Refuse(st, 400)
    else
      var found := TransactionByReference(st.transactions, reference);
      if found.None? then Refuse(st, 404)
      else if !Linked(st, found.value) then Refuse(st, 500)
      else if st.subscriptions[st.transactions[found.value].subscriptionId].userId != caller.value.userId then Refuse(st, 403)
      else Reply(200, Settle(st, found.value, answer.gatewayReference, now), Some(found.value))
  }

  // ---------------------------------------------------------------------------
  // The webhook
  // ---------------------------------------------------------------------------

  /** The parsed webhook body: its `event` and `data.reference`. */
  datatype Event = Event(name: string, reference: string)

  /** `handlePaystackWebhook`. `signature` is the `x-paystack-signature` header, `secret` the
      configured key, `raw` the re-serialised body and `hmac(key, text)` the hex digest.
      Without a key the HMAC constructor throws. The transaction is read with its subscription
      and plan before the COMPLETED guard, so a missing relation throws even for a COMPLETED one. */
  function Webhook(st: Store, signature: Option<string>, secret: Option<string>, raw: string, event: Event,
                   hmac: (string, string) -> string, now: Time): (r: Reply<()>)
    requires UniqueReferences(st.transactions)
    ensures r.code in {200, 401, 500}
    ensures r.code == 401 <==> (|| signature.None? || signature.value == ""
                                || (secret.Some? && signature.value != hmac(secret.value, raw)))
    ensures r.code == 500 <==>
      && signature.Some? && signature.value != ""
      && (|| secret.None?
          || (&& signature.value == hmac(secret.value, raw) && event.name == "charge.success"
              && ReferenceInUse(st.transactions, event.reference)
              && !Linked(st, TransactionByReference(st.transactions, event.reference).value)))
    ensures r.code != 200 ==> r.store == st
    ensures r.code == 200 ==> secret.Some? && signature == Some(hmac(secret.value, raw))
    ensures r.store != st ==>
      && event.name == "charge.success"
      && exists id :: id in st.transactions && st.transactions[id].paymentReference == event.reference
                      && st.transactions[id].paymentStatus != Completed && Linked(st, id)
                      && r.store == Settle(st, id, event.reference, now)
  {
    if signature.None? || signature.value == "" then Refuse(st, 401)
    else if secret.None? then Refuse(st, 500)
    else if signature.value != hmac(secret.value, raw) then Refuse(st, 401)
    else if event.name != "charge.success" then Reply(200, st, Some(()))
    else
      var found := TransactionByReference(st.transactions, event.reference);
      if found.None? then Reply(200, st, Some(()))
      else if !Linked(st, found.value) then Refuse(st, 500)
      else if st.transactions[found.value].paymentStatus == Completed then Reply(200, st, Some(()))
      else Reply(200, Settle(st, found.value, event.reference, now), Some(()))
  }

  /** Every correctly signed event other than `charge.success` is acknowledged with 200 and
      changes nothing. */
  lemma WebhookAcknowledgesOtherEvents(st: Store, secret: string, raw: string, event: Event,
                                       hmac: (string, string) -> string, now: Time)
    requires UniqueReferences(st.transactions)
    requires hmac(secret, raw) != "" && event.name != "charge.success"
    ensures Webhook(st, Some(hmac(secret, raw)), Some(secret), raw, event, hmac, now) == Reply(200, st, Some(()))
  {
  }

  /** A signed `charge.success` for a COMPLETED transaction whose subscription or plan is
      missing still fails: the read with its relations throws before the status is looked at. */
  lemma WebhookReadsRelationsFirst(st: Store, secret: string, raw: string, txId: Id,
                                   hmac: (string, string) -> string, now: Time)
    requires UniqueReferences(st.transactions) && txId in st.transactions && !Linked(st, txId)
    requires st.transactions[txId].paymentStatus == Completed && hmac(secret, raw) != ""
    ensures var ref := st.transactions[txId].paymentReference;
            Webhook(st, Some(hmac(secret, raw)), Some(secret), raw, Event("charge.success", ref), hmac, now).code == 500
  {
    assert TransactionByReference(st.transactions, st.transactions[txId].paymentReference) == Some(txId);
  }

  /** A signed `charge.success` for a pending, linked transaction settles it. */
  lemma WebhookSettlesPending(st: Store, secret: string, raw: string, txId: Id,
                              hmac: (string, string) -> string, now: Time)
    requires UniqueReferences(st.transactions) && txId in st.transactions && Linked(st, txId)
    requires st.transactions[txId].paymentStatus != Completed
    ensures var ref := st.transactions[txId].paymentReference;
            var r := Webhook(st, Some(hmac(secret, raw)), Some(secret), raw, Event("charge.success", ref), hmac, now);
            hmac(secret, raw) != "" ==> r == Reply(200, Settle(st, txId, ref, now), Some(()))
  {
    var ref := st.transactions[txId].paymentReference;
    assert TransactionByReference(st.transactions, ref) == Some(txId);
  }

  /** Redelivery: once the transaction is COMPLETED the webhook writes nothing, whatever the clock says. */
  lemma WebhookRedeliveryIsNoOp(st: Store, signature: Option<string>, secret: Option<string>, raw: string,
                                event: Event, hmac: (string, string) -> string, now1: Time, now2: Time)
    requires UniqueReferences(st.transactions)
    ensures var r1 := Webhook(st, signature, secret, raw, event, hmac, now1);
            UniqueReferences(r1.store.transactions)
            && Webhook(r1.store, signature, secret, raw, event, hmac, now2).store == r1.store
  {
    var r1 := Webhook(st, signature, secret, raw, event, hmac, now1);
    if r1.store != st {
      var id :| id in st.transactions && st.transactions[id].paymentReference == event.reference
                && st.transactions[id].paymentStatus != Completed && Linked(st, id)
                && r1.store == Settle(st, id, event.reference, now1);
      assert r1.store.transactions[id].paymentStatus == Completed;
      assert TransactionByReference(r1.store.transactions, event.reference) == Some(id);
    }
  }
}

=== FILE: plan_catalogue.dfy ===
/**
 * The plan catalogue: the administrator's create / update / delete / list / get
 * operations and the member-facing listing and lookup. Listings are returned as
 * sequences of plan ids in the order the queries ask the database for; ties between
 * equal sort keys come back in an order the database chooses, which the model leaves open.
 */
module PlanCatalogue {
  import opened Wrappers
  import opened Domain
  import Validators

  // ---------------------------------------------------------------------------
  // Ordering: `orderBy` on (isActive desc)? then price asc
  // ---------------------------------------------------------------------------

  /** `rank` is 0 for plans that sort first (active ones when `activeFirst`), 1 otherwise. */
  datatype SortKey = SortKey(rank: int, price: real)

  function Key(p: Plan, activeFirst: bool): SortKey {
    SortKey(if activeFirst && !p.isActive then 1 else 0, p.price)
  }

  predicate KeyLe(a: SortKey, b: SortKey) {
    a.rank < b.rank || (a.rank == b.rank && a.price <= b.price)
  }

  predicate AllIn(plans: map<Id, Plan>, ids: seq<Id>) {
    forall i :: 0 <= i < |ids| ==> ids[i] in plans
  }

  predicate Sorted(plans: map<Id, Plan>, ids: seq<Id>, activeFirst: bool)
    requires AllIn(plans, ids)
  {
    forall i, j :: 0 <= i < j < |ids| ==> KeyLe(Key(plans[ids[i]], activeFirst), Key(plans[ids[j]], activeFirst))
  }

  /** A listing stays sorted when an entry no greater than all of it is put in front. */
  lemma SortedCons(plans: map<Id, Plan>, y: Id, rest: seq<Id>, activeFirst: bool)
    requires y in plans && AllIn(plans, rest) && Sorted(plans, rest, activeFirst)
    requires forall k :: 0 <= k < |rest| ==> KeyLe(Key(plans[y], activeFirst), Key(plans[rest[k]], activeFirst))
    ensures AllIn(plans, [y] + rest) && Sorted(plans, [y] + rest, activeFirst)
  {
    var s := [y] + rest;
    forall i, j | 0 <= i < j < |s|
      ensures KeyLe(Key(plans[s[i]], activeFirst), Key(plans[s[j]], activeFirst))
    {
      if i > 0 {
        assert s[i] == rest[i - 1] && s[j] == rest[j - 1];
      } else {
        assert s[j] == rest[j - 1];
      }
    }
  }

  /** The head of a sorted listing bounds every entry of any rearrangement of its tail plus
      one id that sorts after it. */
  lemma HeadBounds(plans: map<Id, Plan>, ids: seq<Id>, x: Id, rest: seq<Id>, activeFirst: bool)
    requires |ids| > 0 && x in plans && AllIn(plans, ids) && Sorted(plans, ids, activeFirst)
    requires !KeyLe(Key(plans[x], activeFirst), Key(plans[ids[0]], activeFirst))
    requires AllIn(plans, rest) && multiset(rest) == multiset(ids[1..]) + multiset{x}
    ensures forall k :: 0 <= k < |rest| ==> KeyLe(Key(plans[ids[0]], activeFirst), Key(plans[rest[k]], activeFirst))
  {
    forall k | 0 <= k < |rest|
      ensures KeyLe(Key(plans[ids[0]], activeFirst), Key(plans[rest[k]], activeFirst))
    {
      assert rest[k] in multiset(rest);
      if rest[k] != x {
        assert rest[k] in ids[1..];
        var j :| 0 <= j < |ids[1..]| && ids[1..][j] == rest[k];
        assert ids[j + 1] == rest[k];
      }
    }
  }

  /** Insert one id into a sorted listing, in front of the first entry it does not sort after. */
  function Insert(plans: map<Id, Plan>, ids: seq<Id>, x: Id, activeFirst: bool): (r: seq<Id>)
    requires x in plans && AllIn(plans, ids) && Sorted(plans, ids, activeFirst)
    ensures multiset(r) == multiset(ids) + multiset{x}
    ensures AllIn(plans, r) && Sorted(plans, r, activeFirst)
  {
    if |ids| == 0 then [x]
    else if KeyLe(Key(plans[x], activeFirst), Key(plans[ids[0]], activeFirst)) then
      SortedCons(plans, x, ids, activeFirst);
      [x] + ids
    else
      assert Sorted(plans, ids[1..], activeFirst) by {
        forall i, j | 0 <= i < j < |ids[1..]|
          ensures KeyLe(Key(plans[ids[1..][i]], activeFirst), Key(plans[ids[1..][j]], activeFirst))
        {
          assert ids[1..][i] == ids[i + 1] && ids[1..][j] == ids[j + 1];
        }
      }
      var rest := Insert(plans, ids[1..], x, activeFirst);
      HeadBounds(plans, ids, x, rest, activeFirst);
      SortedCons(plans, ids[0], rest, activeFirst);
      assert ids == [ids[0]] + ids[1..];
      [ids[0]] + rest
  }

  /** The ids of `chosen`, each once, in sort order. */
  method SortPlans(plans: map<Id, Plan>, chosen: set<Id>, activeFirst: bool) returns (ids: seq<Id>)
    requires chosen <= plans.Keys
    ensures multiset(ids) == multiset(chosen)
    ensures AllIn(plans, ids) && Sorted(plans, ids, activeFirst)
  {
    ids := [];
    var remaining := chosen;
    while remaining != {}
      invariant remaining <= chosen
      invariant multiset(ids) == multiset(chosen - remaining)
      invariant AllIn(plans, ids) && Sorted(plans, ids, activeFirst)
      decreases |remaining|
    {
      var x :| x in remaining;
      ids := Insert(plans, ids, x, activeFirst);
      assert chosen - (remaining - {x}) == (chosen - remaining) + {x};
      remaining := remaining - {x};
    }
  }

  // ---------------------------------------------------------------------------
  // Administrator operations
  // ---------------------------------------------------------------------------

  predicate NameTaken(plans: map<Id, Plan>, name: string) {
    exists id :: id in plans && plans[id].name == name
  }

  predicate UniqueNames(plans: map<Id, Plan>) {
    forall a, b :: a in plans && b in plans && plans[a].name == plans[b].name ==> a == b
  }

  /** The body `createPlan` reads. `duration` is the key it stores, which may be absent. */
  datatype PlanInput = PlanInput(
    name: string, description: string, price: real, duration: Option<int>,
    targetRole: Role, features: seq<string>, isActive: Option<bool>)

  /** `createPlan`: a taken name is refused with 400; the stored plan is active unless the body says otherwise.
      A missing duration makes the insert throw (500). */
  function CreatePlan(st: Store, input: PlanInput, newId: Id): (r: Reply<Id>)
    ensures r.code in {201, 400, 500}
    ensures r.code == 400 <==> NameTaken(st.plans, input.name)
    ensures r.code == 201 <==> !NameTaken(st.plans, input.name) && input.duration.Some? && newId !in st.plans
    ensures r.code == 201 ==>
      && r.store == st.(plans := r.store.plans)
      && r.store.plans.Keys == st.plans.Keys + {newId}
      && (forall id :: id in st.plans ==> r.store.plans[id] == st.plans[id])
      && var p := r.store.plans[newId];
         p.name == input.name && p.description == input.description && p.price == input.price && p.duration == input.duration.value
         && p.targetRole == input.targetRole && p.features == input.features
         && p.isActive == (input.isActive != Some(false))
    ensures r.code != 201 ==> r.store == st
  {
    if NameTaken(st.plans, input.name) then Refuse(st, 400)
    else if input.duration.None? || newId in st.plans then Refuse(st, 500)
    else
      var p := Plan(input.name, input.description, input.price, input.duration.value,
                    input.targetRole, input.features, input.isActive.GetOr(true));
      Reply(201, st.(plans := st.plans[newId := p]), Some(newId))
  }

  /** The optional fields `updatePlan` passes on to the update. */
  datatype PlanPatch = PlanPatch(
    name: Option<string>, description: Option<string>, price: Option<real>, duration: Option<int>,
    targetRole: Option<Role>, features: Option<seq<string>>, isActive: Option<bool>)

  function ApplyPatch(p: Plan, patch: PlanPatch): (q: Plan)
    ensures q.name == patch.name.GetOr(p.name) && q.isActive == patch.isActive.GetOr(p.isActive)
    ensures q.price == patch.price.GetOr(p.price) && q.duration == patch.duration.GetOr(p.duration)
  {
    Plan(patch.name.GetOr(p.name), patch.description.GetOr(p.description), patch.price.GetOr(p.price),
         patch.duration.GetOr(p.duration), patch.targetRole.GetOr(p.targetRole),
         patch.features.GetOr(p.features), patch.isActive.GetOr(p.isActive))
  }

  /** A name that differs from the plan's own and is held by another plan. The check runs
      only for a truthy (non-empty) name. */
  predicate RenameClash(plans: map<Id, Plan>, id: Id, patch: PlanPatch)
    requires id in plans
  {
    && patch.name.Some? && patch.name.value != "" && patch.name.value != plans[id].name
    && exists other :: other in plans && other != id && plans[other].name == patch.name.value
  }

  /** Another plan already holds `name`. */
  predicate HeldByOther(plans: map<Id, Plan>, id: Id, name: string) {
    exists other :: other in plans && other != id && plans[other].name == name
  }

  /** `updatePlan`. A clash the controller does not look for (an empty name) is refused by the
      unique index on plan names, which makes the update throw. */
  function UpdatePlan(st: Store, id: Id, patch: PlanPatch): (r: Reply<Plan>)
    ensures r.code in {200, 400, 404, 500}
    ensures r.code == 404 <==> id !in st.plans
    ensures r.code == 400 <==> id in st.plans && RenameClash(st.plans, id, patch)
    ensures r.code == 500 <==> id in st.plans && !RenameClash(st.plans, id, patch)
                               && patch.name.Some? && HeldByOther(st.plans, id, patch.name.value)
    ensures r.code == 200 ==> r.store == st.(plans := st.plans[id := ApplyPatch(st.plans[id], patch)])
    ensures r.code != 200 ==> r.store == st
  {
    if id !in st.plans then Refuse(st, 404)
    else if RenameClash(st.plans, id, patch) then Refuse(st, 400)
    else if patch.name.Some? && HeldByOther(st.plans, id, patch.name.value) then Refuse(st, 500)
    else
      var q := ApplyPatch(st.plans[id], patch);
      Reply(200, st.(plans := st.plans[id := q]), Some(q))
  }

  predicate Referenced(subs: map<Id, Subscription>, planId: Id) {
    exists s :: s in subs && subs[s].planId == planId
  }

  /** `deletePlan`: refused while any subscription, whatever its status, names the plan. */
  function DeletePlan(st: Store, id: Id): (r: Reply<()>)
    ensures r.code in {200, 400, 404}
    ensures r.code == 404 <==> id !in st.plans
    ensures r.code == 400 <==> id in st.plans && Referenced(st.subscriptions, id)
    ensures r.code == 200 ==> r.store == st.(plans := st.plans - {id}) && r.store.plans.Keys == st.plans.Keys - {id}
    ensures r.code != 200 ==> r.store == st
  {
    if id !in st.plans then Refuse(st, 404)
    else if Referenced(st.subscriptions, id) then Refuse(st, 400)
    else Reply(200, st.(plans := st.plans - {id}), Some(()))
  }

  /** The `_count.subscriptions` of a plan. */
  function SubscriptionCount(subs: map<Id, Subscription>, planId: Id): (n: nat)
    ensures n > 0 <==> Referenced(subs, planId)
    ensures n <= |subs|
  {
    var users := set s | s in subs && subs[s].planId == planId;
    assert users <= subs.Keys;
    CardOfSubset(users, subs.Keys);
    if Referenced(subs, planId) then
      var s :| s in subs && subs[s].planId == planId;
      assert s in users;
      |users|
    else
      assert users == {};
      |users|
  }

  lemma CardOfSubset<T>(a: set<T>, b: set<T>)
    requires a <= b
    ensures |a| <= |b|
  {
    if a != {} {
      var x :| x in a;
      CardOfSubset(a - {x}, b - {x});
    }
  }

  /** The administrator `getPlanById`: the plan and how many subscriptions name it. */
  function AdminGetPlan(st: Store, id: Id): (r: Reply<(Plan, nat)>)
    ensures r.store == st
    ensures r.code == 404 <==> id !in st.plans
    ensures r.code == 200 ==>
      && r.body.Some? && r.body.value.0 == st.plans[id]
      && (r.body.value.1 > 0 <==> Referenced(st.subscriptions, id))
  {
    if id !in st.plans then Refuse(st, 404)
    else
      var n := SubscriptionCount(st.subscriptions, id);
      Reply(200, st, Some((st.plans[id], n)))
  }

  /** The administrator listing's `where`: `isActive` compares the query string with "true". */
  predicate AdminShows(p: Plan, isActiveQuery: Option<string>, role: Option<Role>) {
    && (isActiveQuery.Some? ==> p.isActive == (isActiveQuery.value == "true"))
    && (role.Some? ==> p.targetRole == role.value)
  }

  /** The administrator `getAllPlans`: filtered, active plans first, then by ascending price.
      An empty `targetRole` is falsy and filters nothing; one that names no role makes the query throw. */
  method AdminListPlans(st: Store, isActiveQuery: Option<string>, targetRole: Option<string>)
    returns (code: int, ids: seq<Id>)
    ensures code == 500 <==> targetRole.Some? && targetRole.value != "" && Validators.ParseRole(targetRole.value).None?
    ensures code != 500 ==> code == 200
    ensures code == 200 ==>
      var role := if targetRole.Some? && targetRole.value != "" then Validators.ParseRole(targetRole.value) else None;
      && multiset(ids) == multiset(set id | id in st.plans && AdminShows(st.plans[id], isActiveQuery, role))
      && AllIn(st.plans, ids) && Sorted(st.plans, ids, true)
    ensures code == 500 ==> ids == []
  {
    if targetRole.Some? && targetRole.value != "" && Validators.ParseRole(targetRole.value).None? {
      return 500, [];
    }
    var role := if targetRole.Some? && targetRole.value != "" then Validators.ParseRole(targetRole.value) else None;
    var chosen := set id | id in st.plans && AdminShows(st.plans[id], isActiveQuery, role);
    ids := SortPlans(st.plans, chosen, true);
    code := 200;
  }

  // ---------------------------------------------------------------------------
  // Member-facing operations
  // ---------------------------------------------------------------------------

  /** A member sees active plans, only those for their own role when signed in. */
  predicate VisibleTo(p: Plan, callerRole: Option<Role>) {
    p.isActive && (callerRole.Some? ==> p.targetRole == callerRole.value)
  }

  /** The member `getAllPlans`, by ascending price. */
  method ListVisiblePlans(st: Store, callerRole: Option<Role>) returns (ids: seq<Id>)
    ensures AllIn(st.plans, ids)
    ensures forall i :: 0 <= i < |ids| ==> st.plans[ids[i]].isActive
    ensures callerRole.Some? ==> forall i :: 0 <= i < |ids| ==> st.plans[ids[i]].targetRole == callerRole.value
    ensures forall id :: id in st.plans && VisibleTo(st.plans[id], callerRole) ==> id in ids
    ensures multiset(ids) == multiset(set id | id in st.plans && VisibleTo(st.plans[id], callerRole))
    ensures forall i, j :: 0 <= i < j < |ids| ==> st.plans[ids[i]].price <= st.plans[ids[j]].price
  {
    var chosen := set id | id in st.plans && VisibleTo(st.plans[id], callerRole);
    ids := SortPlans(st.plans, chosen, false);
    forall i | 0 <= i < |ids|
      ensures ids[i] in chosen
    {
      assert ids[i] in multiset(ids);
    }
    forall id | id in chosen
      ensures id in ids
    {
      assert id in multiset(chosen);
    }
    forall i, j | 0 <= i < j < |ids|
      ensures st.plans[ids[i]].price <= st.plans[ids[j]].price
    {
      assert KeyLe(Key(st.plans[ids[i]], false), Key(st.plans[ids[j]], false));
    }
  }

  /** The member `getPlanById`: a missing plan and a deactivated one both answer 404. */
  function GetVisiblePlan(st: Store, id: Id): (r: Reply<Plan>)
    ensures r.store == st
    ensures r.code in {200, 404}
    ensures r.code == 200 <==> id in st.plans && st.plans[id].isActive
    ensures r.code == 200 ==> r.body == Some(st.plans[id])
  {
    if id !in st.plans then Refuse(st, 404)
    else if !st.plans[id].isActive then Refuse(st, 404)
    else Reply(200, st, Some(st.plans[id]))
  }

  // ---------------------------------------------------------------------------
  // Catalogue invariants
  // ---------------------------------------------------------------------------

  /** Creating a plan keeps plan names unique. */
  lemma CreateKeepsNamesUnique(st: Store, input: PlanInput, newId: Id)
    requires UniqueNames(st.plans)
    ensures UniqueNames(CreatePlan(st, input, newId).store.plans)
  {
    var r := CreatePlan(st, input, newId);
    if r.code == 201 {
      forall a, b | a in r.store.plans && b in r.store.plans && r.store.plans[a].name == r.store.plans[b].name
        ensures a == b
      {
      }
    }
  }

  /** Updating a plan keeps plan names unique. */
  lemma UpdateKeepsNamesUnique(st: Store, id: Id, patch: PlanPatch)
    requires UniqueNames(st.plans)
    ensures UniqueNames(UpdatePlan(st, id, patch).store.plans)
  {
    var r := UpdatePlan(st, id, patch);
    if r.code == 200 {
      forall a, b | a in r.store.plans && b in r.store.plans && r.store.plans[a].name == r.store.plans[b].name
        ensures a == b
      {
      }
    }
  }

  /** The controller's duplicate check is skipped for an empty name, so a rename to "" that
      clashes is refused by the index (500) rather than by the controller (400). */
  lemma EmptyRenameSkipsDuplicateCheck(st: Store, id: Id, other: Id)
    requires id in st.plans && other in st.plans && id != other
    requires st.plans[other].name == ""
    ensures UpdatePlan(st, id, PlanPatch(Some(""), None, None, None, None, None, None)).code == 500
  {
  }

  /** The controller itself answers 400 for a clashing non-empty rename, and allows keeping the plan's own name. */
  lemma RenameOutcomes(st: Store, id: Id, other: Id, name: string)
    requires UniqueNames(st.plans) && id in st.plans && other in st.plans && id != other
    requires st.plans[other].name == name && name != ""
    ensures UpdatePlan(st, id, PlanPatch(Some(name), None, None, None, None, None, None)).code == 400
    ensures UpdatePlan(st, id, PlanPatch(Some(st.plans[id].name), None, None, None, None, None, None)).code == 200
  {
    var own := st.plans[id].name;
    assert !HeldByOther(st.plans, id, own);
  }

  /** Because referenced plans are never deleted, deleting keeps every subscription's plan in place. */
  lemma DeleteKeepsReferentialIntegrity(st: Store, id: Id)
    requires ReferentialIntegrity(st)
    ensures ReferentialIntegrity(DeletePlan(st, id).store)
  {
  }
}

=== FILE: register_form.dfy ===
/**
 * The two pure validators of the registration page: the password check, which reports
 * the first rule a password breaks, and the whole-form check, which records one message
 * per offending field and accepts the form when no message was recorded.
 */
module RegisterForm {
  import opened Wrappers
  import opened Domain
  import Passwords
  import Validators

  const MsgLength := "Password must be at least 8 characters"
  const MsgUpper := "Password must contain at least one uppercase letter"
  const MsgLower := "Password must contain at least one lowercase letter"
  const MsgDigit := "Password must contain at least one number"
  const MsgSpecial := "Password must contain at least one special character"

  /** `validatePassword`: `None` is the page's `null`. */
  function ValidatePassword(p: string): (r: Option<string>)
    ensures r.None? <==> Passwords.UserPasswordOk(p)
    ensures r == Some(MsgLength) <==> |p| < 8
    ensures r == Some(MsgUpper) <==> |p| >= 8 && !Passwords.HasUpper(p)
    ensures r == Some(MsgLower) <==> |p| >= 8 && Passwords.HasUpper(p) && !Passwords.HasLower(p)
    ensures r == Some(MsgDigit) <==>
      |p| >= 8 && Passwords.HasUpper(p) && Passwords.HasLower(p) && !Passwords.HasDigit(p)
    ensures r == Some(MsgSpecial) <==>
      |p| >= 8 && Passwords.HasUpper(p) && Passwords.HasLower(p) && Passwords.HasDigit(p)
      && !Passwords.HasUserSpecial(p)
  {
    if |p| < 8 then Some(MsgLength)
    else if !Passwords.HasUpper(p) then Some(MsgUpper)
    else if !Passwords.HasLower(p) then Some(MsgLower)
    else if !Passwords.HasDigit(p) then Some(MsgDigit)
    else if !Passwords.HasUserSpecial(p) then Some(MsgSpecial)
    else None
  }

  /** The page and the server's member password rule accept exactly the same passwords. */
  lemma PageAgreesWithServer(p: string)
    ensures ValidatePassword(p).None? <==> Validators.ResetOk(Some("t"), Some(p))
  {
  }

  // ---------------------------------------------------------------------------
  // The whole form
  // ---------------------------------------------------------------------------

  datatype Form = Form(
    email: string,
    password: string,
    surname: string,
    otherNames: string,
    phone: string,
    gender: string,
    studentId: string,
    residence: bool,
    hallOfResidence: string,
    staffId: string)

  /** JavaScript's `\s` class. */
  predicate IsSpace(c: char) {
    || c in {' ', '\t', '\n', '\r', '\U{000B}', '\U{000C}', '\U{00A0}', '\U{1680}', '\U{2028}',
             '\U{2029}', '\U{202F}', '\U{205F}', '\U{3000}', '\U{FEFF}'}
    || '\U{2000}' <= c <= '\U{200A}'
  }

  /** No white space strictly between positions `lo` and `hi`. */
  predicate NoSpaceBetween(s: string, lo: int, hi: int)
    requires 0 <= lo && hi <= |s|
  {
    forall j :: lo < j < hi ==> !IsSpace(s[j])
  }

  /** `/\S+@\S+\.\S+/.test(s)`: somewhere in `s`, a non-space, an '@', a non-empty run of
      non-spaces, a '.', and a non-space. */
  predicate EmailLike(s: string) {
    exists i, k ::
      && 1 <= i && i + 2 <= k && k + 1 < |s|
      && !IsSpace(s[i - 1]) && s[i] == '@' && s[k] == '.' && !IsSpace(s[k + 1])
      && NoSpaceBetween(s, i, k)
  }

  /** The `newErrors` record `validateForm` builds, field name to message. */
  function FormErrors(f: Form, role: Role): map<string, string> {
    var e0: map<string, string> := map[];
    var e1 := if f.email == "" then e0["email" := "Email is required"]
              else if !EmailLike(f.email) then e0["email" := "Invalid email address"]
              else e0;
    var e2 := if ValidatePassword(f.password).Some? then e1["password" := ValidatePassword(f.password).value] else e1;
    var e3 := if f.surname == "" then e2["surname" := "Surname is required"] else e2;
    var e4 := if f.otherNames == "" then e3["otherNames" := "Other names are required"] else e3;
    var e5 := if f.phone == "" then e4["phone" := "Phone number is required"]
              else if |f.phone| < 10 then e4["phone" := "Valid phone number is required"]
              else e4;
    var e6 := if f.gender == "" then e5["gender" := "Gender is required"] else e5;
    if role == STUDENT then
      var e7 := if f.studentId == "" then e6["studentId" := "Student ID is required"] else e6;
      if f.residence && f.hallOfResidence == "" then
        e7["hallOfResidence" := "Hall of residence is required when residence is checked"]
      else e7
    else if role == STAFF then
      if f.staffId == "" then e6["staffId" := "Staff ID is required"] else e6
    else e6
  }

  /** The conditions the page demands, field by field. */
  predicate FieldsOk(f: Form, role: Role) {
    && EmailLike(f.email)
    && Passwords.UserPasswordOk(f.password)
    && f.surname != "" && f.otherNames != ""
    && |f.phone| >= 10
    && f.gender != ""
    && (role == STUDENT ==> f.studentId != "" && (f.residence ==> f.hallOfResidence != ""))
    && (role == STAFF ==> f.staffId != "")
  }

  /** `validateForm`: true exactly when no error was recorded. */
  function ValidateForm(f: Form, role: Role): (ok: bool)
    ensures ok <==> FieldsOk(f, role)
  {
    var errors := FormErrors(f, role);
    assert errors == map[] ==> FieldsOk(f, role);
    |errors| == 0
  }

  /** What the page submits for a role (`hallOfResidence || undefined`). */
  function ToSignupBody(f: Form, role: Role): Validators.SignupBody {
    Validators.SignupBody(
      Some(f.email), Some(f.password), Some(f.surname), Some(f.otherNames), Some(f.phone), Some(f.gender),
      if role == STUDENT then Some(f.studentId) else None,
      if role == STAFF then Some(f.staffId) else None,
      if role == STUDENT then Some(f.residence) else None,
      if role == STUDENT && f.hallOfResidence != "" then Some(f.hallOfResidence) else None)
  }

  /** A form the page accepts passes the server schema of its role, provided the server's
      e-mail check agrees and the gender is one of the two the select offers. */
  lemma AcceptedFormPassesServer(f: Form, role: Role, isEmail: string -> bool)
    requires ValidateForm(f, role)
    requires isEmail(f.email) && f.gender in {"MALE", "FEMALE"}
    ensures role == STUDENT ==> Validators.StudentSignupOk(ToSignupBody(f, role), isEmail)
    ensures role == STAFF ==> Validators.StaffSignupOk(ToSignupBody(f, role), isEmail)
    ensures Validators.PublicSignupOk(ToSignupBody(f, role), isEmail)
  {
  }

  /** The converse fails: the server does not ask a resident student for a hall. */
  lemma ServerAcceptsResidentWithoutHall(f: Form, isEmail: string -> bool)
    requires ValidateForm(f.(residence := false), STUDENT)
    requires isEmail(f.email) && f.gender in {"MALE", "FEMALE"}
    ensures var g := f.(residence := true, hallOfResidence := "");
            !ValidateForm(g, STUDENT) && Validators.StudentSignupOk(ToSignupBody(g, STUDENT), isEmail)
  {
  }
}

=== FILE: subscriptions.dfy ===
/**
 * The member subscription handlers: `createSubscription`, which opens a PENDING
 * subscription together with the PENDING transaction that will pay for it, and
 * `getSubscriptionById`, which only shows a subscription to its owner.
 *
 * The caller is the `req.user` the authentication middleware attached. Fresh row ids are
 * parameters; an id that is already taken makes the insert throw, answered with 500.
 */
module Subscriptions {
  import opened Wrappers
  import opened Domain
  import AuthGate

  /** `!req.user?.userId` fails for an absent user and for an empty id. */
  predicate SignedIn(caller: Option<AuthGate.Payload>) {
    caller.Some? && caller.value.userId != ""
  }

  predicate HasActive(subs: map<Id, Subscription>, userId: Id) {
    exists s :: s in subs && subs[s].userId == userId && subs[s].subscriptionStatus == Active
  }

  /** The row `createSubscription` inserts first. */
  function PendingSubscription(userId: Id, planId: Id): (s: Subscription)
    ensures s.subscriptionStatus == SubscriptionStatus.Pending && s.paymentStatus == PaymentStatus.Pending
    ensures s.startDate.None? && s.endDate.None?
  {
    Subscription(userId, planId, SubscriptionStatus.Pending, PaymentStatus.Pending, None, None)
  }

  /** The row `createSubscription` inserts second: it charges the plan price by mobile money. */
  function PendingTransaction(subId: Id, price: real, now: Time): (t: Transaction)
    ensures t.paymentStatus == PaymentStatus.Pending && t.paidAt.None? && t.paystackReference.None?
    ensures t.paymentMethod == MobileMoney && t.createdAt == now
  {
    Transaction(subId, price, MobileMoney, PaymentReference(now, subId), None, PaymentStatus.Pending, None, now)
  }

  /** Why `createSubscription` refuses before writing, in the order it checks. */
  predicate RefusedBeforeWrite(st: Store, caller: Option<AuthGate.Payload>, planId: Id) {
    || !SignedIn(caller)
    || planId !in st.plans
    || !st.plans[planId].isActive
    || caller.value.userId !in st.users
    || st.plans[planId].targetRole != st.users[caller.value.userId].role
    || HasActive(st.subscriptions, caller.value.userId)
  }

  /** `createSubscription`. The body is the new subscription's id and its transaction's id.
      The two inserts are separate statements: when the second throws, the first stays. */
  function CreateSubscription(st: Store, caller: Option<AuthGate.Payload>, planId: Id,
                              newSubId: Id, newTxId: Id, now: Time): (r: Reply<(Id, Id)>)
    ensures r.code == 401 <==> !SignedIn(caller)
    ensures SignedIn(caller) ==>
      && (r.code == 404 <==> planId !in st.plans || (st.plans[planId].isActive && caller.value.userId !in st.users))
      && (r.code == 403 <==> planId in st.plans && st.plans[planId].isActive && caller.value.userId in st.users
                             && st.plans[planId].targetRole != st.users[caller.value.userId].role)
    ensures RefusedBeforeWrite(st, caller, planId) ==> r.code in {400, 401, 403, 404} && r.store == st
    ensures r.code == 201 ==>
      && !RefusedBeforeWrite(st, caller, planId)
      && newSubId !in st.subscriptions && newTxId !in st.transactions
      && r.body == Some((newSubId, newTxId))
      && r.store == st.(subscriptions := st.subscriptions[newSubId := PendingSubscription(caller.value.userId, planId)],
                        transactions := st.transactions[newTxId := PendingTransaction(newSubId, st.plans[planId].price, now)])
    ensures !RefusedBeforeWrite(st, caller, planId) ==> r.code in {201, 500}
    ensures (&& !RefusedBeforeWrite(st, caller, planId) && newSubId !in st.subscriptions && newTxId !in st.transactions
             && !ReferenceInUse(st.transactions, PaymentReference(now, newSubId))) ==> r.code == 201
    ensures r.code == 500 && newSubId !in st.subscriptions ==>
      r.store == st.(subscriptions := st.subscriptions[newSubId := PendingSubscription(caller.value.userId, planId)])
  {
    if !SignedIn(caller) then Refuse(st, 401)
    else if planId !in st.plans then Refuse(st, 404)
    else if !st.plans[planId].isActive then Refuse(st, 400)
    else if caller.value.userId !in st.users then Refuse(st, 404)
    else if st.plans[planId].targetRole != st.users[caller.value.userId].role then Refuse(st, 403)
    else if HasActive(st.subscriptions, caller.value.userId) then Refuse(st, 400)
    else if newSubId in st.subscriptions then Refuse(st, 500)
    else
      var st1 := st.(subscriptions := st.subscriptions[newSubId := PendingSubscription(caller.value.userId, planId)]);
      var t := PendingTransaction(newSubId, st.plans[planId].price, now);
      if newTxId in st.transactions || ReferenceInUse(st.transactions, t.paymentReference) then Reply(500, st1, None)
      else Reply(201, st1.(transactions := st.transactions[newTxId := t]), Some((newSubId, newTxId)))
  }

  /** Only an ACTIVE subscription blocks a new one: a user whose subscriptions are all
      pending, expired or cancelled may subscribe again. */
  lemma OnlyActiveBlocks(st: Store, caller: Option<AuthGate.Payload>, planId: Id, newSubId: Id, newTxId: Id, now: Time)
    requires SignedIn(caller) && planId in st.plans && st.plans[planId].isActive
    requires caller.value.userId in st.users && st.plans[planId].targetRole == st.users[caller.value.userId].role
    requires newSubId !in st.subscriptions && newTxId !in st.transactions
    requires !ReferenceInUse(st.transactions, PaymentReference(now, newSubId))
    ensures CreateSubscription(st, caller, planId, newSubId, newTxId, now).code == 201
            <==> forall s :: s in st.subscriptions && st.subscriptions[s].userId == caller.value.userId
                             ==> st.subscriptions[s].subscriptionStatus != Active
  {
  }

  /** `getSubscriptionById`: the plan is fetched with the subscription, so a dangling plan id
      makes the query throw. */
  function GetSubscription(st: Store, caller: Option<AuthGate.Payload>, id: Id): (r: Reply<Subscription>)
    ensures r.store == st
    ensures r.code in {200, 401, 403, 404, 500}
    ensures r.code == 401 <==> !SignedIn(caller)
    ensures r.code == 404 <==> SignedIn(caller) && id !in st.subscriptions
    ensures r.code == 403 <==> SignedIn(caller) && id in st.subscriptions && st.subscriptions[id].planId in st.plans
                               && st.subscriptions[id].userId != caller.value.userId
    ensures r.code == 200 <==> SignedIn(caller) && id in st.subscriptions && st.subscriptions[id].planId in st.plans
                               && st.subscriptions[id].userId == caller.value.userId
    ensures r.code == 200 ==> r.body == Some(st.subscriptions[id])
  {
    if !SignedIn(caller) then Refuse(st, 401)
    else if id !in st.subscriptions then Refuse(st, 404)
    else if st.subscriptions[id].planId !in st.plans then Refuse(st, 500)
    else if st.subscriptions[id].userId != caller.value.userId then Refuse(st, 403)
    else Reply(200, st, Some(st.subscriptions[id]))
  }

  /** What `createSubscription` makes, its owner can read back. */
  lemma CreatedSubscriptionIsReadable(st: Store, caller: Option<AuthGate.Payload>, planId: Id,
                                      newSubId: Id, newTxId: Id, now: Time)
    requires CreateSubscription(st, caller, planId, newSubId, newTxId, now).code == 201
    ensures var r := CreateSubscription(st, caller, planId, newSubId, newTxId, now);
            GetSubscription(r.store, caller, newSubId) == Reply(200, r.store, Some(PendingSubscription(caller.value.userId, planId)))
  {
  }
}

=== FILE: validators.dfy ===
/**
 * The request schemas of the server, taken on their own: the member signup, login and
 * password-reset bodies, the administrator signup and login bodies, and the plan
 * create/update bodies. A body is what JSON parsing delivers, so any field may be
 * absent (`None`). The format check of `z.string().email()` is a parameter.
 */
module Validators {
  import opened Wrappers
  import opened Domain
  import Passwords

  // ---------------------------------------------------------------------------
  // Enumerations
  // ---------------------------------------------------------------------------

  function GenderName(g: Gender): string {
    match g
    case MALE => "MALE"
    case FEMALE => "FEMALE"
  }

  /** `z.enum(['MALE', 'FEMALE'])`. */
  function ParseGender(s: string): (r: Option<Gender>)
    ensures r.Some? <==> s == "MALE" || s == "FEMALE"
    ensures r.Some? ==> GenderName(r.value) == s
  {
    if s == "MALE" then Some(MALE) else if s == "FEMALE" then Some(FEMALE) else None
  }

  lemma GenderRoundTrip(g: Gender)
    ensures ParseGender(GenderName(g)) == Some(g)
  {
  }

  function RoleName(r: Role): string {
    match r
    case STUDENT => "STUDENT"
    case STAFF => "STAFF"
    case PUBLIC => "PUBLIC"
    case ADMIN => "ADMIN"
  }

  /** `z.nativeEnum(UserRole)`. */
  function ParseRole(s: string): (r: Option<Role>)
    ensures r.Some? <==> s in {"STUDENT", "STAFF", "PUBLIC", "ADMIN"}
    ensures r.Some? ==> RoleName(r.value) == s
  {
    if s == "STUDENT" then Some(STUDENT)
    else if s == "STAFF" then Some(STAFF)
    else if s == "PUBLIC" then Some(PUBLIC)
    else if s == "ADMIN" then Some(ADMIN)
    else None
  }

  lemma RoleRoundTrip(r: Role)
    ensures ParseRole(RoleName(r)) == Some(r)
  {
  }

  // ---------------------------------------------------------------------------
  // Member signup, login, reset
  // ---------------------------------------------------------------------------

  datatype SignupBody = SignupBody(
    email: Option<string>,
    password: Option<string>,
    surname: Option<string>,
    otherNames: Option<string>,
    phone: Option<string>,
    gender: Option<string>,
    studentId: Option<string>,
    staffId: Option<string>,
    residence: Option<bool>,
    hallOfResidence: Option<string>)

  /** `z.string().min(n)` on a field that must be present. */
  predicate MinLen(f: Option<string>, n: nat) { f.Some? && |f.value| >= n }

  /** The fields every member signup schema shares. */
  predicate CommonSignupOk(b: SignupBody, isEmail: string -> bool) {
    && b.email.Some? && isEmail(b.email.value)
    && b.password.Some? && Passwords.UserPasswordOk(b.password.value)
    && MinLen(b.surname, 1)
    && MinLen(b.otherNames, 1)
    && MinLen(b.phone, 10)
    && b.gender.Some? && ParseGender(b.gender.value).Some?
  }

  predicate PublicSignupOk(b: SignupBody, isEmail: string -> bool) {
    CommonSignupOk(b, isEmail)
  }

  predicate StaffSignupOk(b: SignupBody, isEmail: string -> bool) {
    CommonSignupOk(b, isEmail) && MinLen(b.staffId, 1)
  }

  /** `residence` and `hallOfResidence` are optional, so they never make a student body invalid. */
  predicate StudentSignupOk(b: SignupBody, isEmail: string -> bool) {
    CommonSignupOk(b, isEmail) && MinLen(b.studentId, 1)
  }

  /** A student body after parsing: `residence` defaults to false. */
  datatype StudentSignup = StudentSignup(studentId: string, gender: Gender, residence: bool, hallOfResidence: Option<string>)

  function ParseStudentSignup(b: SignupBody, isEmail: string -> bool): (r: Option<StudentSignup>)
    ensures r.Some? <==> StudentSignupOk(b, isEmail)
    ensures r.Some? ==> r.value.residence == (b.residence == Some(true))
    ensures r.Some? ==> GenderName(r.value.gender) == b.gender.value && r.value.studentId == b.studentId.value
    ensures r.Some? ==> r.value.hallOfResidence == b.hallOfResidence
  {
    if StudentSignupOk(b, isEmail) then
      Some(StudentSignup(b.studentId.value, ParseGender(b.gender.value).value,
                         b.residence.GetOr(false), b.hallOfResidence))
    else None
  }

  /** Every body the student or staff schema accepts is also a valid public body. */
  lemma RoleSchemasExtendPublic(b: SignupBody, isEmail: string -> bool)
    ensures StudentSignupOk(b, isEmail) ==> PublicSignupOk(b, isEmail)
    ensures StaffSignupOk(b, isEmail) ==> PublicSignupOk(b, isEmail)
  {
  }

  /** `loginSchema`: the password only has to be non-empty. */
  predicate LoginOk(email: Option<string>, password: Option<string>, isEmail: string -> bool) {
    email.Some? && isEmail(email.value) && MinLen(password, 1)
  }

  /** `resetPasswordSchema`: the new password must meet the strength rule. */
  predicate ResetOk(token: Option<string>, newPassword: Option<string>) {
    MinLen(token, 1) && newPassword.Some? && Passwords.UserPasswordOk(newPassword.value)
  }

  /** Anything accepted as a new password is accepted at login, not the other way round. */
  lemma LoginRuleWeakerThanStrength(email: string, p: string, isEmail: string -> bool)
    requires isEmail(email)
    ensures ResetOk(Some("t"), Some(p)) ==> LoginOk(Some(email), Some(p), isEmail)
    ensures LoginOk(Some(email), Some("a"), isEmail) && !ResetOk(Some("t"), Some("a"))
  {
  }

  // ---------------------------------------------------------------------------
  // Administrator signup and login
  // ---------------------------------------------------------------------------

  datatype AdminSignupBody = AdminSignupBody(
    surname: Option<string>,
    otherNames: Option<string>,
    gender: Option<string>,
    email: Option<string>,
    password: Option<string>,
    isSuperAdmin: Option<bool>)

  datatype AdminSignup = AdminSignup(gender: Gender, isSuperAdmin: bool)

  predicate AdminSignupOk(b: AdminSignupBody, isEmail: string -> bool) {
    && MinLen(b.surname, 1)
    && MinLen(b.otherNames, 1)
    && b.gender.Some? && ParseGender(b.gender.value).Some?
    && b.email.Some? && isEmail(b.email.value)
    && b.password.Some? && Passwords.AdminPasswordOk(b.password.value)
  }

  /** `adminSignupSchema`: `isSuperAdmin` defaults to false. */
  function ParseAdminSignup(b: AdminSignupBody, isEmail: string -> bool): (r: Option<AdminSignup>)
    ensures r.Some? <==> AdminSignupOk(b, isEmail)
    ensures r.Some? ==> r.value.isSuperAdmin == (b.isSuperAdmin == Some(true))
    ensures r.Some? ==> GenderName(r.value.gender) == b.gender.value
  {
    if AdminSignupOk(b, isEmail) then
      Some(AdminSignup(ParseGender(b.gender.value).value, b.isSuperAdmin.GetOr(false)))
    else None
  }

  /** `adminLoginSchema` is the member login rule: any non-empty password. */
  lemma AdminLoginAcceptsWeakPasswords(email: string, isEmail: string -> bool)
    requires isEmail(email)
    ensures LoginOk(Some(email), Some("x"), isEmail) && !Passwords.AdminPasswordOk("x")
  {
  }

  // ---------------------------------------------------------------------------
  // Plans
  // ---------------------------------------------------------------------------

  datatype PlanBody = PlanBody(
    name: Option<string>,
    description: Option<string>,
    price: Option<real>,
    duration: Option<real>,
    durationInDays: Option<real>,
    targetRole: Option<string>,
    features: Option<seq<string>>,
    isActive: Option<bool>)

  /** `z.number().int().positive()`. */
  predicate PositiveInt(x: real) { x > 0.0 && x == x.Floor as real }

  /** `createPlanSchema`. The duration is looked for under the key `durationInDays`. */
  predicate CreatePlanOk(b: PlanBody) {
    && MinLen(b.name, 1)
    && MinLen(b.description, 1)
    && b.price.Some? && b.price.value > 0.0
    && b.durationInDays.Some? && PositiveInt(b.durationInDays.value)
    && b.targetRole.Some? && ParseRole(b.targetRole.value).Some?
    && b.features.Some? && |b.features.value| >= 1
  }

  /** `createPlanSchema` fills in `isActive = true` when the field is absent. */
  function CreatePlanIsActive(b: PlanBody): (r: bool)
    ensures b.isActive.None? ==> r
    ensures b.isActive.Some? ==> r == b.isActive.value
  {
    b.isActive.GetOr(true)
  }

  predicate OptMinLen(f: Option<string>, n: nat) { f.None? || |f.value| >= n }

  /** `z.string().uuid()`: 8-4-4-4-12 hexadecimal digits separated by dashes. */
  predicate IsHex(c: char) { '0' <= c <= '9' || 'a' <= c <= 'f' || 'A' <= c <= 'F' }

  predicate IsUuid(s: string) {
    && |s| == 36
    && (forall i :: 0 <= i < 36 && i in {8, 13, 18, 23} ==> s[i] == '-')
    && (forall i :: 0 <= i < 36 && i !in {8, 13, 18, 23} ==> IsHex(s[i]))
  }

  /** `updatePlanSchema`: the id must be a UUID; every body field is optional but constrained when present. */
  predicate UpdatePlanOk(id: string, b: PlanBody) {
    && IsUuid(id)
    && OptMinLen(b.name, 1)
    && OptMinLen(b.description, 1)
    && (b.price.None? || b.price.value > 0.0)
    && (b.duration.None? || PositiveInt(b.duration.value))
    && (b.targetRole.None? || ParseRole(b.targetRole.value).Some?)
    && (b.features.None? || |b.features.value| >= 1)
  }

  /** A valid create body, with its duration moved to the key the update schema reads, is a valid update body. */
  lemma CreateBodyIsUpdateBody(id: string, b: PlanBody)
    requires IsUuid(id) && CreatePlanOk(b)
    ensures UpdatePlanOk(id, b.(duration := b.durationInDays))
  {
  }

  /** The create schema says nothing about the key `duration` that the controller stores. */
  lemma CreateSchemaIgnoresDuration()
    ensures var b := PlanBody(Some("Gold"), Some("All areas"), Some(100.0), None, Some(30.0),
                              Some("STUDENT"), Some(["Gym"]), None);
            CreatePlanOk(b) && b.duration.None?
  {
    assert ParseRole("STUDENT") == Some(STUDENT);
  }
}

=== FILE: wrappers.dfy ===
/** Optional values, used for nullable columns, absent request fields and lookups. */
module Wrappers {

  datatype Option<+T> = None | Some(value: T) {

    /** The wrapped value, or `default` when there is none. */
    function GetOr(default: T): T {
      match this
      case Some(v) => v
      case None => default
    }
  }
}
